=== FILE: README.md ===
# Penalty-kick scene: the action-sequence coordinator

This project models the part of a browser soccer scene that coordinates a
penalty kick. A pig kicks a ball towards a net and a duck goalkeeper reacts
with a save clip. The scene exists in two variants, and both are modelled:

- `js/old.js`, the older variant. A timeline of events (the pig's kick and the
  duck's save) fires from the render loop once its time has come. The ball is
  launched one second before the kick clip ends. It flies on an eased arc, and
  a deferred callback ends the run once every event has executed and the
  ball is not flying. The keys play clips, select an actor, nudge it, start
  the sequence and reset the scene.
- `js/main.js`, the newer variant. Starting plays the pig's kick clip. After
  800 ms a timer kicks the ball, which flies along a fixed arc for 1.2 s. At
  the same moment the duck plays its save clip. Keys toggle the actors'
  visibility, play clips, kick, start and reset. A welcome button pulses on a
  wrapping counter.

Modules:

- `Text` (`text.dfy`): lower-casing, substring search and one-character
  `indexOf`.
- `Clips` (`clips.dfy`): clips and the engine's mixer, reduced to which clip is
  active and each clip's loop-once, hold-last-frame and speed settings. Also
  the searches that choose a clip by name, and the play helpers of both
  variants.
- `Motion` (`motion.dfy`): positions, `lerp`, the `easeInOutQuad` easing and
  the capped flight progress of the newer variant.
- `Keys` (`keys.dfy`): the digit and letter key-to-clip maps.
- `OldScene` (`old_scene.dfy`) and `MainScene` (`main_scene.dfy`): each has a
  snapshot record of the scene's globals and one transition function per
  operation. Each also has a class `Scene` whose methods change the globals in
  place. Every method is proved to produce exactly the state its transition
  function gives, and the properties of the sequence are lemmas about those
  functions.

Time is an explicit parameter `now`, in milliseconds. A `setTimeout`
callback is an explicit later step. In the older variant that step is
`OldScene.Scene.FireEndTimer`, and pending end callbacks are counted. In the
newer variant it is `MainScene.Scene.FireKickTimer`, and the due times of the
pending kicks wait in a queue. The `Math.sin` arc height is a function
parameter `arc`. Numbers are exact reals, an idealisation of JavaScript
doubles.

## Model

| member | source | states |
|---|---|---|
| Text.Lower | js/main.js:259 | lower-casing keeps the length, maps every character on its own, leaves no ASCII capital, and leaves a string without capitals unchanged |
| Text.ContainsTransitive | js/main.js:260 | an occurrence inside an occurrence is an occurrence |
| Text.GoalSaveContainsSave | js/main.js:1631-1632 | a name that includes 'goal_save' includes 'save' |
| Text.IndexOf | js/old.js:850 | the first index of the character, and -1 exactly when it is absent |
| Text.IndexOfDistinct | js/old.js:850 | in a string of distinct characters, each character is found at its own position |
| Clips.Names | js/old.js:190-195 | definition: the clip names, in clip order (one name per clip) |
| Clips.StandTestsAgree | js/old.js:805-806 | the equality tests of the older stand search add nothing to its substring tests |
| Clips.SaveTestIsSaveOnly | js/main.js:1632 | the 'goal_save' test is subsumed by the 'save' test |
| Clips.FindIndex | js/old.js:1266-1267 | `findIndex`: -1 exactly when no name matches, else the first match |
| Clips.FirstMatch | js/main.js:1629-1635 | the search loop with early `break` returns what FindIndex specifies |
| Clips.StandClipIndex | js/main.js:256-264 | the first stand/idle clip, else 0; in range for a non-empty list |
| Clips.StandSearchesAgree | js/old.js:802-810 | the older and the newer stand searches pick the same clip |
| Clips.FindStandClip | js/old.js:802-810 | the older resetScene's duck loop returns StandClipIndex |
| Clips.FindStandOrIdle | js/main.js:1691-1699 | the newer stand loop returns StandClipIndex |
| Clips.MainSaveClipIndex | js/main.js:1626-1641 | the first 'save' clip, else the fixed index 3 |
| Clips.MainSaveClipInRange | js/main.js:1637-1647 | the save index is in range exactly when some name matches or there are at least four clips |
| Clips.OldSaveClipIndex | js/old.js:1266-1270 | the first 'goal' or 'save' clip, else 0; in range for a non-empty list |
| Clips.PigResetClipIndex | js/old.js:784-789 | clip 3 when there are at least four clips, else clip 0 |
| Clips.PlayOnce | js/old.js:1159-1181 | without a mixer or past the last clip nothing changes; otherwise only that clip becomes loop-once and held, and active |
| Clips.PlayOnceAtSpeed | js/old.js:1183-1207 | as PlayOnce, with the clip's speed set to the factor |
| Clips.PlayLooping | js/old.js:990-1006 | the clip becomes active with its settings kept |
| Clips.PlayAtNormalSpeed | js/old.js:1008-1027 | past the last clip nothing changes; otherwise only that clip's speed becomes 1 and it becomes active |
| Clips.StopAllAndPlay | js/main.js:732-739 | an existing clip becomes active; an index past the end leaves nothing active |
| Clips.StopAllAndPlayOnce | js/main.js:1597-1613 | as StopAllAndPlay, and an existing clip becomes loop-once and held, no other clip changes |
| Motion.Lerp | js/old.js:1351-1352 | interpolation gives the first end at 0 and the second at 1 |
| Motion.LerpWithin | js/old.js:1351-1352 | for t in [0, 1] the result lies between the ends |
| Motion.LerpMonotone | js/old.js:1351-1352 | the result moves monotonically towards the second end |
| Motion.EaseInOutQuad | js/old.js:1374-1376 | the easing is 0, 1/2 and 1 at 0, 1/2 and 1 |
| Motion.EaseWithin | js/old.js:1374-1376 | on [0, 1] the easing stays in [0, 1] |
| Motion.EaseMonotone | js/old.js:1374-1376 | on [0, 1] the easing never decreases |
| Motion.EaseSymmetric | js/old.js:1374-1376 | the easing is point-symmetric about (1/2, 1/2) |
| Motion.EasedLerpWithin | js/old.js:1348-1352 | an eased interpolation never leaves the segment between the ends |
| Motion.Progress | js/main.js:177 | progress never exceeds 1, is 1 exactly when the duration has elapsed, and is not negative after the start |
| Keys.DigitIndex | js/old.js:831-837 | keys '1'..'5' give indices below 5 |
| Keys.DigitKeyRoundTrip | js/main.js:730-731 | the digit key of index i gives index i, and only that key does |
| Keys.LetterIndex | js/main.js:749-751 | a one-letter key in the row gives an in-range index whose letter it is; any other key gives none |
| Keys.LetterIndexRoundTrip | js/old.js:844-850 | in a row of distinct letters each letter gives its own index |
| OldScene.Mark | js/old.js:1237-1243 | every event keeps its time and action, and is executed exactly when it was or its time has come |
| OldScene.Cleared | js/old.js:1212-1214 | every event is pending again, with its time and action kept |
| OldScene.Perform | js/old.js:1246-1277 | the pig kick records the kick clip's duration in ms and plays it once; the duck save plays the save clip once at 1.1 times speed; clips and every other clip's settings are unchanged, and a model without the clip is left alone |
| OldScene.FireDue | js/old.js:1237-1279 | firing the due events keeps the mixers well-formed |
| OldScene.FireDueIdle | js/old.js:1241 | when no event is due and pending, nothing is performed |
| OldScene.FireDuePrefix | js/old.js:1237-1279 | firing one more event extends the fold over the prefix |
| OldScene.NoRefire | js/old.js:1241-1243 | after a pass at e1, a pass at e2 fires exactly the pending events timed in (e1, e2], and one at no later time performs nothing |
| OldScene.TimelineFiresBoth | js/old.js:68-72 | on the initial timeline the first pass performs the kick and then the save |
| OldScene.EventsFired | js/old.js:1237-1279 | the timeline loop keeps the scene well-formed |
| OldScene.LaunchChecked | js/old.js:1281-1292 | the launch decision keeps the scene well-formed |
| OldScene.Updated | js/old.js:1232-1315 | updateActionSequence keeps the scene well-formed |
| OldScene.Framed | js/old.js:291-306 | a frame keeps the scene well-formed |
| OldScene.PigReset | js/old.js:778-794 | the pig's reset clip keeps its mixer well-formed; which clip it plays is stated by OldScene.ResetRestoresScene |
| OldScene.DuckReset | js/old.js:796-815 | the duck's reset clip keeps its mixer well-formed; which clip it plays is stated by OldScene.ResetRestoresScene |
| OldScene.AfterReset | js/old.js:759-825 | resetScene keeps the scene well-formed; what it clears, restores and keeps is stated by MainScene.ResetClearsFlags |
| OldScene.Nudge | js/old.js:1121-1145 | a nudge moves the position by exactly one step along one axis |
| OldScene.NudgeUndone | js/old.js:1126-1145 | the opposite nudge undoes a nudge |
| OldScene.Commanded | js/old.js:830-986 | every key branch keeps the scene well-formed |
| OldScene.AfterKey | js/old.js:827-987 | onKeyDown keeps the scene well-formed |
| OldScene.StartResets | js/old.js:1210-1229 | start clears every event and the launch flag, keeps times and actions, runs from now, and puts the ball at its initial position |
| OldScene.NineStartsOnlyWhenIdle | js/old.js:926-931 | key '9' starts the sequence only when none is running, and changes nothing otherwise |
| OldScene.UpdateMarksDueEvents | js/old.js:1237-1243 | after an update every event is executed exactly when it was or its time has come |
| OldScene.LaunchAtMostOnce | js/old.js:1283-1289 | once launched, later updates never relaunch the ball |
| OldScene.LaunchOnlyWhenDue | js/old.js:1283-1289 | the ball is launched only after a kick duration is known and its lead time has come |
| OldScene.EndOnlyWhenDone | js/old.js:1300-1314 | an end callback is queued only when all events have executed, the ball rests and the run is on |
| OldScene.FlightSnapsToEnd | js/old.js:1365-1369 | once the flight time is over the ball is at its end point and stops |
| OldScene.FlightStaysOnSegment | js/old.js:1343-1364 | during the flight x and z stay between the start and the end |
| OldScene.FlightExample | js/old.js:1338-1371 | halfway the ball is at the midpoint z with the arc height; at 1 s it is at the end and stops |
| OldScene.RunningFrameStepsTwice | js/old.js:298-306 | during a run a frame advances the flying ball twice, so it spins twice per frame |
| OldScene.OnlyEndTimerStops | js/old.js:1310-1313 | frames and keys never end a run; an end callback ends it exactly when one is pending |
| OldScene.StaleEndTimerEndsRestart | js/old.js:1210-1229 | pressed while an end callback of the previous run is pending, '9' starts a run with nothing executed, and that callback ends it |
| OldScene.CancellingStartHasNoStaleEnd | js/old.js:1210-1229 | the intended start differs from the written one only by dropping pending end callbacks, so the fresh run has none pending and a callback firing leaves it alone |
| OldScene.EndQueuedBeforeLaunch | js/old.js:1308-1313 | as written, the first frame of a run whose kick clip lasts over one second marks both events executed and queues an end callback while the ball is still unlaunched and its launch lies in the future |
| OldScene.NoLaunchAfterEnd | js/old.js:298-306 | once a run has ended, frames leave the run unchanged and keys other than '9' do not touch it, so an unlaunched ball is never launched |
| OldScene.EndCheckedAfterLaunchAgrees | js/old.js:1308-1309 | the intended end check agrees with the written one once the ball has been launched (or no launch can come), and queues nothing before |
| OldScene.EndWaitsForLaunch | js/old.js:1283-1289 | with the intended end check, the first frame of a run with a kick clip over one second queues no end callback and leaves the launch due |
| OldScene.EndPendingOnlyWhenDoneKept | js/old.js:1300-1314 | with the intended start and end check, frames, keys and end callbacks keep an end callback pending only when every event has executed and the ball has been launched and has landed (or no launch can come) |
| OldScene.IntendedEndOnlyWhenDone | js/old.js:1309-1313 | under that invariant, an end callback ends a run only after every event has executed and the ball has been launched and has landed (or no launch can come) |
| OldScene.ResetRestoresScene | js/old.js:759-825 | reset puts the pig, the duck and the ball back at their initial positions with the ball's spin cleared, plays pig clip 3 (else 0) and the duck's first stand/idle clip (else 0), keeps clips and settings, clears only the selection, and leaves the run, the kick duration and a flight in progress alone |
| OldScene.NudgeMovesOnlySelected | js/old.js:975-984 | in movement mode a nudge key moves the selected ball, pig or duck one step along one axis and changes nothing else; with nothing selected or outside movement mode it changes nothing |
| OldScene.Scene.constructor | js/old.js:15-83 | the scene starts with the timeline pending, nothing running and every actor at its initial position |
| OldScene.Scene.StartActionSequence | js/old.js:1210-1229 | the new state is Started of the old one |
| OldScene.Scene.PerformEvent | js/old.js:1246-1277 | the mixers become Perform of the old mixers |
| OldScene.Scene.FireDueEvents | js/old.js:1237-1279 | the timeline loop leaves the state EventsFired describes |
| OldScene.Scene.AllEventsExecuted | js/old.js:1300-1306 | true exactly when every event has executed |
| OldScene.Scene.StartBallAnimation | js/old.js:1318-1335 | the ball flies from where it is to z = 2.6 from now on |
| OldScene.Scene.UpdateBallAnimation | js/old.js:1338-1371 | the ball becomes Fly of the old ball |
| OldScene.Scene.UpdateActionSequence | js/old.js:1232-1315 | the new state is Updated of the old one |
| OldScene.Scene.Update | js/old.js:291-306 | the new state is Framed of the old one |
| OldScene.Scene.FireEndTimer | js/old.js:1310-1313 | a pending end callback ends the run |
| OldScene.Scene.ResetScene | js/old.js:759-825 | the new state is AfterReset of the old one |
| OldScene.Scene.MoveSelectedObject | js/old.js:1121-1145 | the selected actor is nudged one step |
| OldScene.Scene.OnKeyDown | js/old.js:827-987 | the new state is AfterKey of the old one |
| MainScene.Loaded | js/main.js:248-268 | a loaded model has all its clips with fresh settings, and a clip plays exactly when it has clips |
| MainScene.Started | js/main.js:1590-1660 | start keeps the mixers well-formed |
| MainScene.SaveReaction | js/main.js:1623-1656 | the duck's save reaction keeps its mixer well-formed |
| MainScene.KickFired | js/main.js:1619-1660 | the delayed kick keeps the scene well-formed |
| MainScene.StandReset | js/main.js:1686-1725 | a reset mixer stays well-formed |
| MainScene.AfterReset | js/main.js:1675-1737 | resetScene keeps the scene well-formed; what it clears, restores and keeps is stated by MainScene.ResetClearsFlags |
| MainScene.PigClipped | js/main.js:730-746 | a pig clip key keeps the scene well-formed |
| MainScene.DuckClipped | js/main.js:749-765 | a duck clip key keeps the scene well-formed |
| MainScene.Commanded | js/main.js:640-770 | every key branch keeps the scene well-formed |
| MainScene.AfterKey | js/main.js:638-771 | onKeyDown keeps the scene well-formed |
| MainScene.LoadedPlaysStandClip | js/main.js:254-268 | a model with clips plays its first stand/idle clip, else clip 0 |
| MainScene.KickGuard | js/main.js:1740-1754 | an existing idle ball is launched from the start with no spin and not completed; otherwise nothing changes |
| MainScene.FlightFollowsProgress | js/main.js:174-202 | x stays at the start, z is linear in the capped progress, y is the arc height, the ball rolls one step; the flight ends exactly when its duration has elapsed, at the end z and completed |
| MainScene.FlightStaysBetweenEnds | js/main.js:177-185 | after the kick z stays between the start z and the end z |
| MainScene.KickedBallLands | js/main.js:1740-1754 | any frame at least 1.2 s after a kick leaves the ball at the end, completed and resting |
| MainScene.StartGuard | js/main.js:1590-1619 | while running, start changes nothing; from idle it runs, plays the kick clip once and queues one kick due 800 ms later, except that a pig mixer with under two clips throws: nothing plays and nothing is queued |
| MainScene.DelayedKickLaunches | js/main.js:1619-1660 | the timer leaves the queue; a visible idle ball is launched now and the duck's save clip (the first clip named with 'save', else clip 3) plays exactly when it exists, once and held on its last frame; otherwise only the queue changes |
| MainScene.ResetClearsFlags | js/main.js:1675-1737 | reset clears the running, flight and reaction flags, puts the ball at the start, plays each model's first stand/idle clip (else clip 0), and keeps toggles and queued kicks |
| MainScene.OnlyResetStops | js/main.js:1590-1594 | every key but 'r' and every delayed kick keeps a running sequence running; 'r' stops it |
| MainScene.ToggleKeysFlipOwnFlag | js/main.js:646-689 | b, p, d and n each flip their own visibility flag and m the panel flag, and nothing else changes |
| MainScene.DigitKeyLowerCase | js/main.js:730 | a digit key is its own lower case |
| MainScene.DigitKeyIsPigClip | js/main.js:730-731 | a digit key reaches the pig clip branch |
| MainScene.DuckKeyIsDuckClip | js/main.js:749-751 | q, w, e and t reach the duck clip branch |
| MainScene.DigitKeysPickPigClip | js/main.js:730-746 | keys '1'..'5' play pig clip key-1 when it exists and change nothing else; otherwise nothing changes |
| MainScene.DuckKeysPickDuckClip | js/main.js:749-765 | q, w, e, t play duck clips 0, 1, 2, 4 when they exist and change nothing else; otherwise nothing changes |
| MainScene.ResetKeyIsDuckKey | js/main.js:749 | 'r' is also the duck key for clip 3 |
| MainScene.ResetKeyOnlyResets | js/main.js:749-770 | key 'r' has exactly the effect of resetScene: the duck clip 3 it picks is replaced at once |
| MainScene.AdvanceWithin | js/main.js:157-160 | with a non-negative delta the pulse counter stays within [0, duration] |
| MainScene.AdvanceRestarts | js/main.js:157-160 | the counter is 0 after a tick exactly when the advanced time passes the duration or is 0 |
| MainScene.PulseTimeline.constructor | js/main.js:1891-1897 | the pulse starts at 0 with a 2000 ms period, scales 1.0 to 1.1, pulsing |
| MainScene.PulseTimeline.Tick | js/main.js:156-160 | the counter keeps within [0, duration] and becomes Advance of the old counter |
| MainScene.PulseTimeline.Progress | js/main.js:162 | the pulse progress lies in [0, 1] and is 1 exactly at the duration |
| MainScene.Scene.constructor | js/main.js:7-33 | before loading: all actors shown, panel hidden, nothing running, no ball and no mixers |
| MainScene.Scene.LoadMixer | js/main.js:248-268 | the load callback's mixer is Loaded of the clips |
| MainScene.Scene.LoadPig | js/main.js:248-268 | the pig's mixer becomes Loaded of its clips |
| MainScene.Scene.LoadDuck | js/main.js:333-353 | the duck's mixer becomes Loaded of its clips |
| MainScene.Scene.LoadBall | js/main.js:385-412 | the ball exists, at the start position |
| MainScene.Scene.KickBall | js/main.js:1740-1754 | the ball becomes Kicked of the old ball |
| MainScene.Scene.UpdateBall | js/main.js:174-202 | the ball becomes Flown of the old ball |
| MainScene.Scene.StartActionSequence | js/main.js:1590-1660 | the new state is Started of the old one |
| MainScene.Scene.FireKickTimer | js/main.js:1619-1660 | the new state is KickFired of the old one |
| MainScene.Scene.ResetMixer | js/main.js:1686-1725 | the mixer becomes StandReset of the old mixer |
| MainScene.Scene.ResetScene | js/main.js:1675-1737 | the new state is AfterReset of the old one |
| MainScene.Scene.OnKeyDown | js/main.js:638-771 | the new state is AfterKey of the old one |

## Findings

| source | as written | input that shows it | evidently intended | confidence | as-written member | corrected member |
|---|---|---|---|---|---|---|
| js/old.js:1309-1313 | startActionSequence does not cancel the 500 ms end callbacks that updateActionSequence queued for the previous run | a run ends; within 500 ms, before its end callbacks have all run, the user presses '9': the new run starts with every event unexecuted and a stale callback sets it to not running | starting a run drops the previous run's pending end callbacks, so a run ends only after all of its own events have executed | not executed | OldScene.StaleEndTimerEndsRestart | OldScene.StartedCancelling, OldScene.CancellingStartHasNoStaleEnd, OldScene.EndPendingOnlyWhenDoneKept, OldScene.IntendedEndOnlyWhenDone |
| js/old.js:1308-1309 | the end test checks that every event has executed and that the ball is not flying, but not that the ball has been launched; both events are due at time 0 and the launch comes only at the kick clip's duration less one second | a kick clip longer than 1.5 s: the first frame queues the end callback, which ends the run 500 ms later, before the launch time; frames then stop updating the sequence and the ball never flies | the sequence ends once the ball animation is complete, as the comment on the test says: the end test also waits for the launch when a kick duration is known | not executed | OldScene.EndQueuedBeforeLaunch, OldScene.NoLaunchAfterEnd | OldScene.EndCheckedAfterLaunch, OldScene.EndCheckedAfterLaunchAgrees, OldScene.EndWaitsForLaunch, OldScene.EndPendingOnlyWhenDoneKept, OldScene.IntendedEndOnlyWhenDone |

The `Scene` class of the older variant keeps the start and the end test as written (`OldScene.Started`, `OldScene.EndChecked`), so that it stays a model of the code. The intended behaviour is the key handler `OldScene.AfterKeyCancelling` (start drops pending end callbacks) with the frame `OldScene.FramedAfterLaunch` (the end test waits for the launch); the invariant `OldScene.EndPendingOnlyWhenDone` is proved for both together.

## Left out

- The static-file HTTP server (`server.py`) is not part of this model: it is socket I/O.
- Renderer, camera, lights, sky, ocean, clouds, net and grass construction, and the model loaders' progress and error callbacks, are left out. Loading becomes the constructor parameters (older variant) or the `Load*` methods (newer variant).
- The DOM panels are left out: controls, animation lists, coordinate and outline displays, and the panel toggles. In the newer variant the toggles set the same visibility flags as the keys b, p, d and n. In the older variant a visibility checkbox also drops the selection of the model it hides. The model reaches these states through the keys only.
- The camera reset (Space in the newer variant, `resetCamera` in the older one) and its `easeInOutCubic` transition are left out; Space changes nothing in the model.
- The mixers' playback time is left out: `mixer.update(delta)`, `action.reset()` and the real stopping of actions. A mixer is only its active clip and each clip's loop-once, hold-last-frame and speed settings.
- `Math.sin` is left out: the arc height is the parameter `arc`, so the lemmas hold for any arc shape. The cloud bobbing and the pulse's cosine scale are left out for the same reason.
- Floating point is left out: numbers are exact reals.
- `toLowerCase` is modelled for ASCII letters only.
- Rotations of the pig and the duck and the selection outline meshes are left out; the ball's rotation is modelled.
- The welcome button's fade-out on 's' (newer variant) is left out; it is a visual effect with its own frame loop.
- The older variant's `animate` and `optimizeModel` are left out: nothing calls them.
- OldScene.Scene.FireEndTimer: the older variant queues one 500 ms end callback per frame while the end condition holds. The model counts them and lets any one fire; their individual due times are not modelled.
- The older variant keeps its timeline in a constant array of objects it updates in place. The model keeps it as a sequence field that the methods reassign, so aliasing of the event objects is not modelled.
- Keys.DigitIndex: the newer variant compares `event.key` with '1' and '5' as strings and then calls `parseInt`. The model accepts only the one-character keys '1'..'5'; no key name of a keyboard event is a longer string that starts with a digit.
- MainScene.Scene.FireKickTimer: the model does not require that the callback runs at or after its due time; the queue only records the due times.
- MainScene.Scene.LoadBall: the placeholder sphere's creation and the loaded ball's scale and materials are left out; both become "the ball exists at the start position".
- The unused globals of the newer variant (`actionSequenceStartTime`, the timing constants other than the 800 ms delay) are left out; `pigAnimationStarted` and `duckReactionStarted` are kept, and only the reset writes them.

=== FILE: clips.dfy ===
/**
  * Animation clips and the engine's animation mixer, reduced to what the two
  * scene variants rely on: the list of clips loaded with a model, each clip's
  * play settings (loop once, freeze on the last frame, speed) and which clip is
  * currently playing. Also the rules that choose a clip index by name.
  */
module Clips {
  import opened Text

  datatype Option<T> = None | Some(value: T)

  /** A clip as loaded from a model file; `duration` is in seconds. */
  datatype Clip = Clip(name: string, duration: real)

  /** The play settings an engine action keeps between plays. */
  datatype Settings = Settings(loopOnce: bool, clampWhenFinished: bool, timeScale: real)

  /** A freshly created action: loops, does not freeze, normal speed. */
  const FreshSettings := Settings(false, false, 1.0)

  /**
    * A model's mixer and its clips. `loaded` is false while the model has no
    * mixer (not loaded yet, or replaced by a placeholder shape); such a model
    * has no clips. `active` is the clip that is playing, if any.
    */
  datatype Mixer = Mixer(loaded: bool, clips: seq<Clip>, settings: seq<Settings>, active: Option<nat>)
  {
    ghost predicate Valid()
    {
      && |settings| == |clips|
      && (!loaded ==> clips == [])
      && (active.Some? ==> active.value < |clips|)
    }
  }

  /** The clip names, in order. */
  function Names(clips: seq<Clip>): (names: seq<string>)
    ensures |names| == |clips|
    ensures forall i :: 0 <= i < |clips| ==> names[i] == clips[i].name
  {
    seq(|clips|, i requires 0 <= i < |clips| => clips[i].name)
  }

  // ---------------------------------------------------------------------------
  // Searching clips by name
  // ---------------------------------------------------------------------------

  /** The name tests the searches apply, each to the lower-cased name. */
  datatype Pattern =
    | StandOrIdle       // includes 'stand' or 'idle'
    | StandOrIdleExact  // equals or includes 'stand', equals or includes 'idle'
    | GoalOrSave        // includes 'goal' or 'save'
    | GoalSaveOrSave    // includes 'goal_save' or 'save'

  predicate Matches(p: Pattern, name: string)
  {
    var n := Lower(name);
    match p
    case StandOrIdle => Contains(n, "stand") || Contains(n, "idle")
    case StandOrIdleExact => n == "stand" || Contains(n, "stand") || n == "idle" || Contains(n, "idle")
    case GoalOrSave => Contains(n, "goal") || Contains(n, "save")
    case GoalSaveOrSave => Contains(n, "goal_save") || Contains(n, "save")
  }

  /** The equality tests of the stand search add nothing to its substring tests. */
  lemma StandTestsAgree(name: string)
    ensures Matches(StandOrIdleExact, name) <==> Matches(StandOrIdle, name)
  {
    ContainsSelf(Lower(name));
  }

  /** The 'goal_save' test of the save search is subsumed by its 'save' test. */
  lemma SaveTestIsSaveOnly(name: string)
    ensures Matches(GoalSaveOrSave, name) <==> Contains(Lower(name), "save")
  {
    if Contains(Lower(name), "goal_save") {
      GoalSaveContainsSave(Lower(name));
    }
  }

  ghost predicate AnyMatch(names: seq<string>, p: Pattern)
  {
    exists j :: 0 <= j < |names| && Matches(p, names[j])
  }

  /** `r` is the index of the first name that matches `p`. */
  ghost predicate IsFirstMatch(names: seq<string>, p: Pattern, r: int)
  {
    && 0 <= r < |names|
    && Matches(p, names[r])
    && forall j :: 0 <= j < r ==> !Matches(p, names[j])
  }

  /** `Array.prototype.findIndex` with the test `p`: the first match, or -1. */
  function FindIndex(names: seq<string>, p: Pattern): (r: int)
    ensures -1 <= r < |names|
    ensures r == -1 <==> !AnyMatch(names, p)
    ensures r != -1 ==> IsFirstMatch(names, p, r)
    decreases |names|
  {
    if names == [] then -1
    else if Matches(p, names[0]) then 0
    else
      var k := FindIndex(names[1..], p);
      if k == -1 then
        assert forall j :: 1 <= j < |names| ==> names[j] == names[1..][j - 1];
        -1
      else
        assert forall j :: 1 <= j <= k + 1 ==> names[j] == names[1..][j - 1];
        k + 1
  }

  /**
    * The search loops with an early `break` (main.js and old.js): scan the
    * names in order and stop at the first that matches.
    */
  method FirstMatch(names: seq<string>, p: Pattern) returns (index: int)
    ensures index == FindIndex(names, p)
  {
    index := -1;
    var i := 0;
    while i < |names|
      invariant 0 <= i <= |names|
      invariant forall j :: 0 <= j < i ==> !Matches(p, names[j])
    {
      if Matches(p, names[i]) {
        index := i;
        break;
      }
      i := i + 1;
    }
  }

  // ---------------------------------------------------------------------------
  // The index choices
  // ---------------------------------------------------------------------------

  /** The default ("stand") clip: the first stand/idle clip, else clip 0. */
  function StandClipIndex(names: seq<string>): (r: nat)
    ensures |names| > 0 ==> r < |names|
    ensures AnyMatch(names, StandOrIdle) ==> IsFirstMatch(names, StandOrIdle, r)
    ensures !AnyMatch(names, StandOrIdle) ==> r == 0
  {
    var k := FindIndex(names, StandOrIdle);
    if k == -1 then 0 else k
  }

  /** Both stand searches find the same clip. */
  lemma {:induction false} StandSearchesAgree(names: seq<string>)
    ensures FindIndex(names, StandOrIdleExact) == FindIndex(names, StandOrIdle)
    decreases |names|
  {
    if names != [] {
      StandTestsAgree(names[0]);
      StandSearchesAgree(names[1..]);
    }
  }

  /**
    * The default-clip loop of the older scene's resetScene: start from clip 0
    * and stop at the first name that equals or includes 'stand' or 'idle'.
    */
  method FindStandClip(names: seq<string>) returns (index: nat)
    ensures index == StandClipIndex(names)
  {
    index := 0;
    var i := 0;
    while i < |names|
      invariant 0 <= i <= |names|
      invariant forall j :: 0 <= j < i ==> !Matches(StandOrIdle, names[j])
    {
      StandTestsAgree(names[i]);
      if Matches(StandOrIdleExact, names[i]) {
        index := i;
        break;
      }
      i := i + 1;
    }
  }

  /**
    * The default-clip loop of the newer scene (model loading and resetScene):
    * start from clip 0 and stop at the first name that includes 'stand' or
    * 'idle'.
    */
  method FindStandOrIdle(names: seq<string>) returns (index: nat)
    ensures index == StandClipIndex(names)
  {
    index := 0;
    var i := 0;
    while i < |names|
      invariant 0 <= i <= |names|
      invariant forall j :: 0 <= j < i ==> !Matches(StandOrIdle, names[j])
    {
      if Matches(StandOrIdle, names[i]) {
        index := i;
        break;
      }
      i := i + 1;
    }
  }

  /** The duck's save clip in the newer scene: the first 'save' clip, else clip 3. */
  function MainSaveClipIndex(names: seq<string>): (r: nat)
    ensures AnyMatch(names, GoalSaveOrSave) ==> IsFirstMatch(names, GoalSaveOrSave, r)
    ensures !AnyMatch(names, GoalSaveOrSave) ==> r == 3
  {
    var k := FindIndex(names, GoalSaveOrSave);
    if k == -1 then 3 else k
  }

  /**
    * The fallback 3 is not checked against the number of clips: the chosen
    * index is in range exactly when some name matches or there are at least
    * four clips.
    */
  lemma MainSaveClipInRange(names: seq<string>)
    ensures MainSaveClipIndex(names) < |names| <==> AnyMatch(names, GoalSaveOrSave) || |names| >= 4
  {
  }

  /** The duck's save clip in the older scene: first 'goal' or 'save' clip, else clip 0. */
  function OldSaveClipIndex(names: seq<string>): (r: nat)
    ensures |names| > 0 ==> r < |names|
    ensures AnyMatch(names, GoalOrSave) ==> IsFirstMatch(names, GoalOrSave, r)
    ensures !AnyMatch(names, GoalOrSave) ==> r == 0
  {
    var k := FindIndex(names, GoalOrSave);
    if k == -1 then 0 else k
  }

  /** The pig's reset clip in the older scene: clip 3 ("Stand") if it exists, else clip 0. */
  function PigResetClipIndex(count: nat): (r: nat)
    ensures count > 0 ==> r < count
    ensures r == 3 <==> count >= 4
    ensures r == 0 || r == 3
  {
    if 3 >= count then 0 else 3
  }

  // ---------------------------------------------------------------------------
  // Playing a clip (older scene: one active action that is stopped and replaced)
  // ---------------------------------------------------------------------------

  /**
    * playAnimationOnce: without a mixer or for an index past the last clip,
    * nothing changes; otherwise the clip is set to play once and freeze on its
    * last frame, and becomes the active clip.
    */
  function PlayOnce(m: Mixer, index: nat): (r: Mixer)
    requires m.Valid()
    ensures r.Valid() && r.loaded == m.loaded && r.clips == m.clips
    ensures index >= |m.clips| ==> r == m
    ensures index < |m.clips| ==>
      && r.active == Some(index)
      && r.settings[index] == m.settings[index].(loopOnce := true, clampWhenFinished := true)
      && forall j :: 0 <= j < |m.clips| && j != index ==> r.settings[j] == m.settings[j]
  {
    if !m.loaded || index >= |m.clips| then m
    else
      var s := m.settings[index].(loopOnce := true, clampWhenFinished := true);
      m.(settings := m.settings[index := s], active := Some(index))
  }

  /**
    * playDuckAnimationOnce: as PlayOnce, and the clip's speed becomes
    * `speedFactor`.
    */
  function PlayOnceAtSpeed(m: Mixer, index: nat, speedFactor: real): (r: Mixer)
    requires m.Valid()
    ensures r.Valid() && r.loaded == m.loaded && r.clips == m.clips
    ensures index >= |m.clips| ==> r == m
    ensures index < |m.clips| ==>
      && r.active == Some(index)
      && r.settings[index] == Settings(true, true, speedFactor)
      && forall j :: 0 <= j < |m.clips| && j != index ==> r.settings[j] == m.settings[j]
  {
    if !m.loaded || index >= |m.clips| then m
    else m.(settings := m.settings[index := Settings(true, true, speedFactor)], active := Some(index))
  }

  /**
    * playAnimation: without a mixer or without clips nothing changes;
    * otherwise the clip becomes active with the settings it already has. Its
    * only caller passes an index below the number of clips.
    */
  function PlayLooping(m: Mixer, index: nat): (r: Mixer)
    requires m.Valid() && index < |m.clips|
    ensures r.Valid() && r.loaded == m.loaded && r.clips == m.clips && r.settings == m.settings
    ensures r.active == Some(index)
  {
    m.(active := Some(index))
  }

  /**
    * playDuckAnimation: for an index past the last clip nothing changes;
    * otherwise the clip's speed is reset to normal and it becomes active.
    */
  function PlayAtNormalSpeed(m: Mixer, index: nat): (r: Mixer)
    requires m.Valid()
    ensures r.Valid() && r.loaded == m.loaded && r.clips == m.clips
    ensures index >= |m.clips| ==> r == m
    ensures index < |m.clips| ==>
      && r.active == Some(index)
      && r.settings[index] == m.settings[index].(timeScale := 1.0)
      && forall j :: 0 <= j < |m.clips| && j != index ==> r.settings[j] == m.settings[j]
  {
    if !m.loaded || index >= |m.clips| then m
    else m.(settings := m.settings[index := m.settings[index].(timeScale := 1.0)], active := Some(index))
  }

  // ---------------------------------------------------------------------------
  // Playing a clip (newer scene: stopAllAction, then clipAction(clips[index]))
  // ---------------------------------------------------------------------------

  /**
    * stopAllAction followed by playing `clips[index]`, unchecked: an index
    * past the last clip makes the engine throw after everything has been
    * stopped, so nothing is active afterwards.
    */
  function StopAllAndPlay(m: Mixer, index: nat): (r: Mixer)
    requires m.Valid()
    ensures r.Valid() && r.loaded == m.loaded && r.clips == m.clips && r.settings == m.settings
    ensures index < |m.clips| ==> r.active == Some(index)
    ensures index >= |m.clips| ==> r.active == None
  {
    if index < |m.clips| then m.(active := Some(index)) else m.(active := None)
  }

  /** As StopAllAndPlay, with the clip set to play once and freeze on its last frame. */
  function StopAllAndPlayOnce(m: Mixer, index: nat): (r: Mixer)
    requires m.Valid()
    ensures r.Valid() && r.loaded == m.loaded && r.clips == m.clips
    ensures index < |m.clips| ==>
      && r.active == Some(index)
      && r.settings[index] == m.settings[index].(loopOnce := true, clampWhenFinished := true)
      && forall j :: 0 <= j < |m.clips| && j != index ==> r.settings[j] == m.settings[j]
    ensures index >= |m.clips| ==> r.active == None && r.settings == m.settings
  {
    if index < |m.clips| then
      var s := m.settings[index].(loopOnce := true, clampWhenFinished := true);
      m.(settings := m.settings[index := s], active := Some(index))
    else m.(active := None)
  }
}

=== FILE: keys.dfy ===
/**
  * The key-to-clip-index maps both scene variants use: the digit keys for the
  * pig and a row of five letter keys for the duck.
  */
module Keys {
  import opened Text
  import opened Clips

  /** Keys '1'..'5' pick clip 0..4 (parseInt(key) - 1). */
  function DigitIndex(key: string): (r: Option<nat>)
    ensures r.Some? ==> r.value < 5
  {
    if |key| == 1 && '1' <= key[0] <= '5' then Some(key[0] as int - '1' as int) else None
  }

  /** The key that picks clip `i`. */
  function DigitKey(i: nat): string
    requires i < 5
  {
    [('1' as int + i) as char]
  }

  /** DigitIndex and DigitKey are inverse to each other. */
  lemma DigitKeyRoundTrip(i: nat, key: string)
    requires i < 5
    ensures DigitIndex(DigitKey(i)) == Some(i)
    ensures DigitIndex(key) == Some(i) ==> key == DigitKey(i)
  {
    if DigitIndex(key) == Some(i) {
      assert key == [key[0]];
    }
  }

  /**
    * A one-letter key's position in a row of letter keys (`letters.indexOf(key)`
    * in the older scene, a literal object from letter to index in the newer one).
    */
  function LetterIndex(letters: string, key: string): (r: Option<nat>)
    ensures r.Some? ==> r.value < |letters| && key == [letters[r.value]]
    ensures r.None? <==> !(|key| == 1 && key[0] in letters)
  {
    if |key| == 1 && key[0] in letters then Some(IndexOf(letters, key[0])) else None
  }

  /** In a row of distinct letters, each letter picks its own position. */
  lemma LetterIndexRoundTrip(letters: string, i: nat)
    requires forall j, k :: 0 <= j < k < |letters| ==> letters[j] != letters[k]
    requires i < |letters|
    ensures LetterIndex(letters, [letters[i]]) == Some(i)
  {
    IndexOfDistinct(letters, i);
  }
}

=== FILE: main_scene.dfy ===
/**
  * The newer scene variant (main.js): the pig kicks, 800 ms later the ball
  * flies along a fixed arc into the net and the duck plays its save clip.
  *
  * Each operation that changes the scene is a method of class `Scene`, proved
  * to leave the scene in the state a function of the old state says; the
  * properties of the sequence are lemmas about those functions. Time is an
  * explicit parameter `now` in milliseconds; the 800 ms kick timer is a queue
  * of due times whose head fires in `Scene.FireKickTimer`.
  */
module MainScene {
  import opened Text
  import opened Clips
  import opened Motion
  import opened Keys

  // ---------------------------------------------------------------------------
  // Constants
  // ---------------------------------------------------------------------------

  /** Every kick starts here and flies to BallEnd. */
  const BallStart := Vec3(-0.8, 0.0, -1.5)
  const BallEnd := Vec3(-0.8, 0.0, 2.6)
  /** Length of the ball's flight, in milliseconds. */
  const FlightMs: int := 1200
  /** The arc's peak height. */
  const MaxHeight: real := 1.5
  /** Per-frame roll of the flying ball about the x axis. */
  const Roll: real := 0.08
  /** Delay between starting the sequence and the kick, in milliseconds. */
  const KickDelayMs: int := 800
  /** The pig kick clip (the clip key '2' picks). */
  const KickClip: nat := 1
  /** The keys that pick a duck clip, in clip order. */
  const DuckKeys: string := "qwert"
  /** The duck clip the 'r' key picks before it resets the scene. */
  const ResetDuckClip: nat := 3

  // ---------------------------------------------------------------------------
  // The scene's state
  // ---------------------------------------------------------------------------

  /** The visibility toggles and whether the controls panel is shown. */
  datatype Visibility = Visibility(showBall: bool, showPig: bool, showDuck: bool, showNet: bool,
                                   controlsVisible: bool)

  /**
    * The action sequence's flags. `kickTimers` holds the due times of the
    * delayed-kick callbacks not yet run, earliest first.
    */
  datatype Run = Run(running: bool, pigAnimationStarted: bool, duckReactionStarted: bool,
                     kickTimers: seq<int>)

  /** The ball, once its model (or the placeholder sphere) exists, and its flight. */
  datatype Ball = Ball(present: bool, pos: Vec3, rot: Vec3, animating: bool, completed: bool, startTime: int)

  datatype Cast = Cast(pig: Mixer, duck: Mixer)
  {
    ghost predicate Valid() { pig.Valid() && duck.Valid() }
  }

  /** A snapshot of everything the handlers read and write. */
  datatype SceneState = SceneState(shown: Visibility, run: Run, ball: Ball, cast: Cast)
  {
    ghost predicate Valid() { cast.Valid() }
  }

  /** A model that has not loaded: no mixer, no clips. */
  const NoMixer := Mixer(false, [], [], None)

  /** The state before any model has loaded. */
  const Initial := SceneState(
    Visibility(true, true, true, true, false),
    Run(false, false, false, []),
    Ball(false, BallStart, Origin, false, false, 0),
    Cast(NoMixer, NoMixer))

  /** `ball && ball.visible`: the ball's visibility always follows its toggle. */
  predicate BallVisible(s: SceneState)
  {
    s.ball.present && s.shown.showBall
  }

  // ---------------------------------------------------------------------------
  // Transitions, as functions of the snapshot
  // ---------------------------------------------------------------------------

  /**
    * The mixer a model's load callback builds: all of the model's clips with
    * fresh settings, and the default ("stand") clip playing if there is any clip.
    */
  function Loaded(clips: seq<Clip>): (m: Mixer)
    ensures m.Valid() && m.loaded && m.clips == clips
    ensures forall i :: 0 <= i < |clips| ==> m.settings[i] == FreshSettings
    ensures m.active.Some? <==> clips != []
  {
    var active := if clips == [] then None else Some(StandClipIndex(Names(clips)));
    Mixer(true, clips, seq(|clips|, i => FreshSettings), active)
  }

  /** kickBall: only an existing ball that is not flying is (re)launched. */
  function Kicked(b: Ball, now: int): Ball
  {
    if !b.animating && b.present
    then b.(pos := BallStart, rot := Origin, animating := true, completed := false, startTime := now)
    else b
  }

  /**
    * The ball block of the render loop. `arc` stands for the height term
    * sin(π·p) of the progress p.
    */
  function Flown(b: Ball, now: int, arc: real -> real): Ball
  {
    if !b.animating then b
    else
      var p := Progress(now - b.startTime, FlightMs);
      var moved := b.(pos := Vec3(BallStart.x, MaxHeight * arc(p), BallStart.z + (BallEnd.z - BallStart.z) * p),
                      rot := b.rot.(x := b.rot.x - Roll));
      if p >= 1.0 then moved.(animating := false, completed := true) else moved
  }

  /**
    * startActionSequence. Once past its guard it marks the sequence running,
    * restarts the pig on its kick clip (played once, held on its last frame)
    * and queues the delayed kick. With a pig of fewer than two clips the
    * engine throws after stopping the pig, so no kick is queued.
    */
  function Started(s: SceneState, now: int): (r: SceneState)
    requires s.Valid()
    ensures r.Valid()
  {
    if s.run.running then s
    else
      var pig := s.cast.pig;
      var throws := pig.loaded && KickClip >= |pig.clips|;
      s.(run := s.run.(running := true,
                       kickTimers := if throws then s.run.kickTimers else s.run.kickTimers + [now + KickDelayMs]),
         cast := s.cast.(pig := if pig.loaded then StopAllAndPlayOnce(pig, KickClip) else pig))
  }

  /**
    * The duck's reaction to the delayed kick: stop everything and play the
    * save clip once, held on its last frame. The fallback clip 3 is not
    * checked against the number of clips.
    */
  function SaveReaction(m: Mixer): (r: Mixer)
    requires m.Valid()
    ensures r.Valid()
  {
    if m.loaded then StopAllAndPlayOnce(m, MainSaveClipIndex(Names(m.clips))) else m
  }

  /** The delayed-kick callback at the head of the queue runs at time `now`. */
  function KickFired(s: SceneState, now: int): (r: SceneState)
    requires s.Valid() && |s.run.kickTimers| > 0
    ensures r.Valid()
  {
    var s1 := s.(run := s.run.(kickTimers := s.run.kickTimers[1..]));
    if BallVisible(s1) && !s1.ball.animating
    then s1.(ball := Kicked(s1.ball, now), cast := s1.cast.(duck := SaveReaction(s1.cast.duck)))
    else s1
  }

  /** resetScene's mixer step: stop everything, then play the default clip if there is one. */
  function StandReset(m: Mixer): (r: Mixer)
    requires m.Valid()
    ensures r.Valid()
  {
    if !m.loaded then m
    else if m.clips == [] then m.(active := None)
    else m.(active := Some(StandClipIndex(Names(m.clips))))
  }

  /** resetScene. It does not cancel a queued kick. */
  function AfterReset(s: SceneState): (r: SceneState)
    requires s.Valid()
    ensures r.Valid()
  {
    var b := if s.ball.present then s.ball.(pos := BallStart, rot := Origin) else s.ball;
    s.(run := s.run.(running := false, pigAnimationStarted := false, duckReactionStarted := false),
       ball := b.(animating := false, completed := false),
       cast := Cast(StandReset(s.cast.pig), StandReset(s.cast.duck)))
  }

  // ---------------------------------------------------------------------------
  // Keys
  // ---------------------------------------------------------------------------

  /** The branches of onKeyDown a key reaches. */
  datatype Command =
    | CameraKey
    | ToggleBallKey
    | TogglePigKey
    | ToggleDuckKey
    | ToggleNetKey
    | ControlsKey
    | KickKey
    | StartKey
    | PigClipKey(index: nat)
    | DuckClipKey(index: nat)
    | ResetKey
    | OtherKey

  /**
    * The branch a key event reaches. The letter tests look at the lower-cased
    * key, the digit test at the key itself. Only 'r' reaches two branches of
    * the handler (duck clip 3, then the reset); ResetKey stands for both.
    */
  function KeyCommand(code: string, key: string): Command
  {
    var k := Lower(key);
    if code == "Space" then CameraKey
    else if k == "b" then ToggleBallKey
    else if k == "p" then TogglePigKey
    else if k == "d" then ToggleDuckKey
    else if k == "n" then ToggleNetKey
    else if k == "m" then ControlsKey
    else if k == "k" then KickKey
    else if k == "s" then StartKey
    else if DigitIndex(key).Some? then PigClipKey(DigitIndex(key).value)
    else if k == "r" then ResetKey
    else if LetterIndex(DuckKeys, k).Some? then DuckClipKey(LetterIndex(DuckKeys, k).value)
    else OtherKey
  }

  /** A pig clip key: with a mixer and an existing clip, stop everything and play it. */
  function PigClipped(s: SceneState, i: nat): (r: SceneState)
    requires s.Valid()
    ensures r.Valid()
  {
    if s.cast.pig.loaded && i < |s.cast.pig.clips|
    then s.(cast := s.cast.(pig := StopAllAndPlay(s.cast.pig, i)))
    else s
  }

  /** A duck clip key: with a mixer and an existing clip, stop everything and play it. */
  function DuckClipped(s: SceneState, i: nat): (r: SceneState)
    requires s.Valid()
    ensures r.Valid()
  {
    if s.cast.duck.loaded && i < |s.cast.duck.clips|
    then s.(cast := s.cast.(duck := StopAllAndPlay(s.cast.duck, i)))
    else s
  }

  /** onKeyDown, for the branch the key reaches. */
  function Commanded(s: SceneState, c: Command, now: int): (r: SceneState)
    requires s.Valid()
    ensures r.Valid()
  {
    match c
    case CameraKey => s
    case ToggleBallKey => s.(shown := s.shown.(showBall := !s.shown.showBall))
    case TogglePigKey => s.(shown := s.shown.(showPig := !s.shown.showPig))
    case ToggleDuckKey => s.(shown := s.shown.(showDuck := !s.shown.showDuck))
    case ToggleNetKey => s.(shown := s.shown.(showNet := !s.shown.showNet))
    case ControlsKey => s.(shown := s.shown.(controlsVisible := !s.shown.controlsVisible))
    case KickKey => if BallVisible(s) && !s.ball.animating then s.(ball := Kicked(s.ball, now)) else s
    case StartKey => Started(s, now)
    case PigClipKey(i) => PigClipped(s, i)
    case DuckClipKey(i) => DuckClipped(s, i)
    case ResetKey => AfterReset(DuckClipped(s, ResetDuckClip))
    case OtherKey => s
  }

  /** onKeyDown. */
  function AfterKey(s: SceneState, code: string, key: string, now: int): (r: SceneState)
    requires s.Valid()
    ensures r.Valid()
  {
    Commanded(s, KeyCommand(code, key), now)
  }

  // ---------------------------------------------------------------------------
  // Properties of the transitions
  // ---------------------------------------------------------------------------

  /** A loaded model plays its first stand/idle clip, else its first clip. */
  lemma LoadedPlaysStandClip(clips: seq<Clip>)
    requires clips != []
    ensures var m := Loaded(clips);
      && m.active.Some? && m.active.value < |clips|
      && (AnyMatch(Names(clips), StandOrIdle) ==> IsFirstMatch(Names(clips), StandOrIdle, m.active.value))
      && (!AnyMatch(Names(clips), StandOrIdle) ==> m.active.value == 0)
  {
  }

  /**
    * kickBall launches an existing, idle ball from the start position with no
    * spin and the flight not completed; otherwise it changes nothing.
    */
  lemma KickGuard(b: Ball, now: int)
    ensures b.animating || !b.present ==> Kicked(b, now) == b
    ensures !b.animating && b.present ==>
      var r := Kicked(b, now);
      && r.animating && !r.completed && r.startTime == now
      && r.pos == BallStart && r.rot == Origin && r.present
  {
  }

  /**
    * During a flight x stays at the start x, z moves linearly with the
    * progress, the height is the arc term, and the ball rolls back by one step.
    * The flight ends exactly when its duration has elapsed; it then rests at
    * the end z and is marked completed.
    */
  lemma FlightFollowsProgress(b: Ball, now: int, arc: real -> real)
    requires b.animating
    ensures var r := Flown(b, now, arc);
      var p := Progress(now - b.startTime, FlightMs);
      && r.pos == Vec3(BallStart.x, MaxHeight * arc(p), BallStart.z + (BallEnd.z - BallStart.z) * p)
      && r.rot == b.rot.(x := b.rot.x - Roll)
      && (r.animating <==> now - b.startTime < FlightMs)
      && (!r.animating ==> r.completed && r.pos.z == BallEnd.z)
      && (r.animating ==> r.completed == b.completed)
  {
  }

  /** A flight that has started never leaves the segment between the start z and the end z. */
  lemma FlightStaysBetweenEnds(b: Ball, now: int, arc: real -> real)
    requires b.animating && now >= b.startTime
    ensures BallStart.z <= Flown(b, now, arc).pos.z <= BallEnd.z
  {
    var p := Progress(now - b.startTime, FlightMs);
    assert 0.0 <= p <= 1.0;
    ScaleWithin(p, BallEnd.z - BallStart.z);
  }

  /**
    * A kicked ball lands: any frame at least the flight duration after the
    * kick leaves it at the end z, completed and no longer flying.
    */
  lemma KickedBallLands(b: Ball, t: int, d: int, arc: real -> real)
    requires b.present && !b.animating && d >= FlightMs
    ensures var r := Flown(Kicked(b, t), t + d, arc);
      && r.pos.x == BallEnd.x && r.pos.z == BallEnd.z
      && r.completed && !r.animating
  {
  }

  /**
    * The start guard: while a sequence runs, starting again changes nothing.
    * From idle it marks the run, plays the pig's kick clip once and queues
    * one kick due 800 ms later, unless the pig has a mixer with fewer than
    * two clips, in which case nothing plays on the pig and no kick is queued.
    * Neither the ball nor the duck nor the toggles change.
    */
  lemma StartGuard(s: SceneState, now: int)
    requires s.Valid()
    ensures s.run.running ==> Started(s, now) == s
    ensures !s.run.running ==>
      var r := Started(s, now);
      var pig := s.cast.pig;
      && r.run.running
      && r.ball == s.ball && r.shown == s.shown && r.cast.duck == s.cast.duck
      && (pig.loaded && KickClip < |pig.clips| ==>
            && r.cast.pig.active == Some(KickClip)
            && r.cast.pig.settings[KickClip].loopOnce && r.cast.pig.settings[KickClip].clampWhenFinished)
      && (pig.loaded && KickClip >= |pig.clips| ==>
            r.cast.pig.active == None && r.run.kickTimers == s.run.kickTimers)
      && (!pig.loaded || KickClip < |pig.clips| ==>
            r.run.kickTimers == s.run.kickTimers + [now + KickDelayMs])
  {
  }

  /**
    * The delayed kick: it leaves the queue, and if the ball is visible and
    * idle it is launched at the callback's time and the duck starts its save
    * clip, which exists exactly when some clip name contains 'save' or the
    * duck has at least four clips; that clip is played once and held on its
    * last frame. Otherwise only the queue changes.
    */
  lemma DelayedKickLaunches(s: SceneState, now: int)
    requires s.Valid() && |s.run.kickTimers| > 0
    ensures var r := KickFired(s, now); var i := MainSaveClipIndex(Names(s.cast.duck.clips));
      && (BallVisible(s) && !s.ball.animating && s.cast.duck.loaded && i < |s.cast.duck.clips| ==>
            && r.cast.duck.active == Some(i)
            && r.cast.duck.settings[i].loopOnce && r.cast.duck.settings[i].clampWhenFinished)
    ensures var r := KickFired(s, now);
      && r.run == s.run.(kickTimers := s.run.kickTimers[1..])
      && r.shown == s.shown && r.cast.pig == s.cast.pig
      && (BallVisible(s) && !s.ball.animating ==>
            && r.ball.animating && r.ball.startTime == now && r.ball.pos == BallStart
            && (s.cast.duck.loaded ==>
                  (r.cast.duck.active.Some? <==>
                     AnyMatch(Names(s.cast.duck.clips), GoalSaveOrSave) || |s.cast.duck.clips| >= 4)))
      && (!(BallVisible(s) && !s.ball.animating) ==> r.ball == s.ball && r.cast == s.cast)
  {
    MainSaveClipInRange(Names(s.cast.duck.clips));
  }

  /**
    * resetScene clears every sequence and flight flag, puts an existing ball
    * back at the start with no spin, plays the default clip of each model
    * that has clips, and leaves the toggles and the queued kicks alone: a
    * kick queued before the reset still fires.
    */
  lemma ResetClearsFlags(s: SceneState)
    requires s.Valid()
    ensures var r := AfterReset(s);
      && !r.run.running && !r.run.pigAnimationStarted && !r.run.duckReactionStarted
      && !r.ball.animating && !r.ball.completed
      && (s.ball.present ==> r.ball.pos == BallStart && r.ball.rot == Origin)
      && (s.cast.pig.loaded && s.cast.pig.clips != [] ==>
            r.cast.pig.active == Some(StandClipIndex(Names(s.cast.pig.clips))))
      && (s.cast.duck.loaded && s.cast.duck.clips != [] ==>
            r.cast.duck.active == Some(StandClipIndex(Names(s.cast.duck.clips))))
      && r.shown == s.shown && r.run.kickTimers == s.run.kickTimers
  {
  }

  /**
    * Only the reset ends a sequence: every other key and the delayed kick
    * keep a running sequence running.
    */
  lemma OnlyResetStops(s: SceneState, code: string, key: string, now: int)
    requires s.Valid() && s.run.running
    ensures KeyCommand(code, key) != ResetKey ==> AfterKey(s, code, key, now).run.running
    ensures KeyCommand(code, key) == ResetKey ==> !AfterKey(s, code, key, now).run.running
    ensures |s.run.kickTimers| > 0 ==> KickFired(s, now).run.running
  {
  }

  /** Keys b, p, d and n each flip their own visibility toggle and change nothing else; m flips the panel. */
  lemma ToggleKeysFlipOwnFlag(s: SceneState, code: string, key: string, now: int)
    requires s.Valid() && code != "Space"
    ensures var r := AfterKey(s, code, key, now);
      && (Lower(key) == "b" ==> r == s.(shown := s.shown.(showBall := !s.shown.showBall)))
      && (Lower(key) == "p" ==> r == s.(shown := s.shown.(showPig := !s.shown.showPig)))
      && (Lower(key) == "d" ==> r == s.(shown := s.shown.(showDuck := !s.shown.showDuck)))
      && (Lower(key) == "n" ==> r == s.(shown := s.shown.(showNet := !s.shown.showNet)))
      && (Lower(key) == "m" ==> r == s.(shown := s.shown.(controlsVisible := !s.shown.controlsVisible)))
  {
  }

  /** A digit key is its own lower case. */
  lemma DigitKeyLowerCase(key: string)
    ensures DigitIndex(key).Some? ==> Lower(key) == key
  {
    if DigitIndex(key).Some? {
      assert Lower(key)[0] == key[0];
    }
  }

  /** Digit keys are no letter keys: a digit key reaches the pig clip branch. */
  lemma DigitKeyIsPigClip(code: string, key: string)
    requires code != "Space" && DigitIndex(key).Some?
    ensures KeyCommand(code, key) == PigClipKey(DigitIndex(key).value)
  {
    DigitKeyLowerCase(key);
  }

  /** A duck letter key other than 'r' reaches the duck clip branch. */
  lemma DuckKeyIsDuckClip(code: string, key: string, i: nat)
    requires code != "Space" && i < |DuckKeys| && i != ResetDuckClip
    requires Lower(key) == [DuckKeys[i]]
    ensures KeyCommand(code, key) == DuckClipKey(i)
  {
    DigitKeyLowerCase(key);
    LetterIndexRoundTrip(DuckKeys, i);
    if i == 0 {
      assert Lower(key) == "q";
    } else if i == 1 {
      assert Lower(key) == "w";
    } else if i == 2 {
      assert Lower(key) == "e";
    } else {
      assert Lower(key) == "t";
    }
  }

  /**
    * Keys '1'..'5' play pig clip key-1 when the pig has a mixer and that clip
    * exists, and change nothing otherwise.
    */
  lemma DigitKeysPickPigClip(s: SceneState, code: string, key: string, now: int)
    requires s.Valid() && code != "Space" && DigitIndex(key).Some?
    ensures var i := DigitIndex(key).value;
      var r := AfterKey(s, code, key, now);
      && (s.cast.pig.loaded && i < |s.cast.pig.clips| ==>
            && r.cast.pig.active == Some(i)
            && r == s.(cast := s.cast.(pig := r.cast.pig)))
      && (!(s.cast.pig.loaded && i < |s.cast.pig.clips|) ==> r == s)
  {
    DigitKeyIsPigClip(code, key);
  }

  /** The letter keys q, w, e, t play duck clips 0, 1, 2, 4 when they exist. */
  lemma DuckKeysPickDuckClip(s: SceneState, code: string, key: string, now: int, i: nat)
    requires s.Valid() && code != "Space" && i < |DuckKeys| && i != ResetDuckClip
    requires Lower(key) == [DuckKeys[i]]
    ensures var r := AfterKey(s, code, key, now);
      && (s.cast.duck.loaded && i < |s.cast.duck.clips| ==>
            && r.cast.duck.active == Some(i)
            && r == s.(cast := s.cast.(duck := r.cast.duck)))
      && (!(s.cast.duck.loaded && i < |s.cast.duck.clips|) ==> r == s)
  {
    DuckKeyIsDuckClip(code, key, i);
  }

  /** 'r' is the duck key for clip 3 as well as the reset key. */
  lemma ResetKeyIsDuckKey()
    ensures LetterIndex(DuckKeys, "r") == Some(ResetDuckClip)
  {
    LetterIndexRoundTrip(DuckKeys, ResetDuckClip);
    assert [DuckKeys[ResetDuckClip]] == "r";
  }

  /**
    * Key 'r' picks duck clip 3 and then resets the scene; the reset replaces
    * the duck's clip at once, so the key has exactly the effect of the reset.
    */
  lemma ResetKeyOnlyResets(s: SceneState, code: string, key: string, now: int)
    requires s.Valid() && code != "Space" && Lower(key) == "r"
    ensures AfterKey(s, code, key, now) == AfterReset(s)
  {
    DigitKeyLowerCase(key);
    assert KeyCommand(code, key) == ResetKey;
  }

  // ---------------------------------------------------------------------------
  // The welcome button's pulse
  // ---------------------------------------------------------------------------

  /**
    * One tick of the pulse counter: advance by the frame's delta (seconds,
    * counted in milliseconds) and restart at 0 once past the duration.
    */
  function Advance(time: real, delta: real, duration: real): real
  {
    var t := time + delta * 1000.0;
    if t > duration then 0.0 else t
  }

  /** With a non-negative delta the counter stays within [0, duration]. */
  lemma AdvanceWithin(time: real, delta: real, duration: real)
    requires 0.0 <= time <= duration && delta >= 0.0
    ensures 0.0 <= Advance(time, delta, duration) <= duration
  {
  }

  /** The counter restarts exactly when the advanced time passes the duration. */
  lemma AdvanceRestarts(time: real, delta: real, duration: real)
    requires duration > 0.0 && 0.0 <= time && delta >= 0.0
    ensures Advance(time, delta, duration) == 0.0 <==>
      time + delta * 1000.0 > duration || time + delta * 1000.0 == 0.0
  {
  }

  /** The welcome button's pulse timeline (2 s per pulse, scale 1.0 to 1.1). */
  class PulseTimeline {
    var time: real
    const duration: real
    const startScale: real
    const endScale: real
    const pulsing: bool

    ghost predicate Valid()
      reads this
    {
      duration > 0.0 && 0.0 <= time <= duration
    }

    constructor ()
      ensures Valid()
      ensures time == 0.0 && duration == 2000.0 && startScale == 1.0 && endScale == 1.1 && pulsing
    {
      time := 0.0;
      duration := 2000.0;
      startScale := 1.0;
      endScale := 1.1;
      pulsing := true;
    }

    /** One render-loop tick; `delta` comes from the engine clock and is never negative. */
    method Tick(delta: real)
      requires Valid() && delta >= 0.0
      modifies this
      ensures Valid()
      ensures time == if pulsing then Advance(old(time), delta, duration) else old(time)
    {
      if pulsing {
        AdvanceWithin(time, delta, duration);
        time := time + delta * 1000.0;
        if time > duration {
          time := 0.0;
        }
      }
    }

    /** The pulse progress time/duration, within [0, 1]. */
    function Progress(): (p: real)
      reads this
      requires Valid()
      ensures 0.0 <= p <= 1.0
      ensures p == 1.0 <==> time == duration
    {
      time / duration
    }
  }

  // ---------------------------------------------------------------------------
  // The scene object
  // ---------------------------------------------------------------------------

  /**
    * The scene's globals, grouped as in `SceneState`: the toggles, the
    * sequence flags with the queued kicks, the ball, and the two mixers.
    */
  class Scene {
    var shown: Visibility
    var run: Run
    var ball: Ball
    var cast: Cast

    ghost function Snapshot(): SceneState
      reads this
    {
      SceneState(shown, run, ball, cast)
    }

    ghost predicate Valid()
      reads this
    {
      cast.Valid()
    }

    /** The scene before any model has loaded. */
    constructor ()
      ensures Valid()
      ensures Snapshot() == Initial
    {
      shown := Visibility(true, true, true, true, false);
      run := Run(false, false, false, []);
      ball := Ball(false, BallStart, Origin, false, false, 0);
      cast := Cast(NoMixer, NoMixer);
    }

    /** The mixer part of the pig and duck load callbacks. */
    static method LoadMixer(clips: seq<Clip>) returns (m: Mixer)
      ensures m == Loaded(clips)
    {
      m := Mixer(true, clips, seq(|clips|, i => FreshSettings), None);
      if |clips| > 0 {
        var standIndex := FindStandOrIdle(Names(clips));
        m := m.(active := Some(standIndex));
      }
    }

    /** The pig model has loaded with these clips. */
    method LoadPig(clips: seq<Clip>)
      requires Valid()
      modifies this`cast
      ensures Valid()
      ensures cast == old(cast).(pig := Loaded(clips))
    {
      var m := LoadMixer(clips);
      cast := cast.(pig := m);
    }

    /** The duck model has loaded with these clips. */
    method LoadDuck(clips: seq<Clip>)
      requires Valid()
      modifies this`cast
      ensures Valid()
      ensures cast == old(cast).(duck := Loaded(clips))
    {
      var m := LoadMixer(clips);
      cast := cast.(duck := m);
    }

    /** The ball model (or the placeholder sphere) exists, at the start position. */
    method LoadBall()
      modifies this`ball
      ensures ball == old(ball).(present := true, pos := BallStart)
    {
      ball := ball.(present := true, pos := BallStart);
    }

    /** kickBall. */
    method KickBall(now: int)
      modifies this`ball
      ensures ball == Kicked(old(ball), now)
    {
      if !ball.animating && ball.present {
        ball := ball.(pos := BallStart, rot := Origin);
        ball := ball.(animating := true, startTime := now, completed := false);
      }
    }

    /** The ball block of the render loop; `arc` gives sin(π·p) for the progress p. */
    method UpdateBall(now: int, arc: real -> real)
      modifies this`ball
      ensures ball == Flown(old(ball), now, arc)
    {
      if ball.animating {
        var elapsed := now - ball.startTime;
        var progress := Progress(elapsed, FlightMs);
        var height := MaxHeight * arc(progress);
        var z := BallStart.z + (BallEnd.z - BallStart.z) * progress;
        ball := ball.(pos := Vec3(BallStart.x, height, z));
        ball := ball.(rot := ball.rot.(x := ball.rot.x - Roll));
        if progress >= 1.0 {
          ball := ball.(animating := false, completed := true);
        }
      }
    }

    /** startActionSequence. */
    method StartActionSequence(now: int)
      requires Valid()
      modifies this`run, this`cast
      ensures Valid()
      ensures Snapshot() == Started(old(Snapshot()), now)
    {
      if !run.running {
        run := run.(running := true);
        var pig := cast.pig;
        if pig.loaded {
          cast := cast.(pig := StopAllAndPlayOnce(pig, KickClip));
        }
        if !pig.loaded || KickClip < |pig.clips| {
          run := run.(kickTimers := run.kickTimers + [now + KickDelayMs]);
        }
      }
    }

    /** The delayed-kick callback at the head of the queue runs at time `now`. */
    method FireKickTimer(now: int)
      requires Valid() && |run.kickTimers| > 0
      modifies this`run, this`ball, this`cast
      ensures Valid()
      ensures Snapshot() == KickFired(old(Snapshot()), now)
    {
      run := run.(kickTimers := run.kickTimers[1..]);
      if ball.present && shown.showBall && !ball.animating {
        KickBall(now);
        var duck := cast.duck;
        if duck.loaded {
          var saveIndex := FirstMatch(Names(duck.clips), GoalSaveOrSave);
          if saveIndex == -1 {
            saveIndex := 3;
          }
          cast := cast.(duck := StopAllAndPlayOnce(duck, saveIndex));
        }
      }
    }

    /** The mixer part of resetScene for one model. */
    static method ResetMixer(m: Mixer) returns (r: Mixer)
      requires m.Valid()
      ensures r == StandReset(m)
    {
      r := m;
      if m.loaded {
        r := r.(active := None);
        if |m.clips| > 0 {
          var standIndex := FindStandOrIdle(Names(m.clips));
          r := r.(active := Some(standIndex));
        }
      }
    }

    /** resetScene. */
    method ResetScene()
      requires Valid()
      modifies this`run, this`ball, this`cast
      ensures Valid()
      ensures Snapshot() == AfterReset(old(Snapshot()))
    {
      run := run.(running := false);
      if ball.present {
        ball := ball.(pos := BallStart, rot := Origin);
      }
      var pig := ResetMixer(cast.pig);
      var duck := ResetMixer(cast.duck);
      cast := Cast(pig, duck);
      ball := ball.(animating := false, completed := false);
      run := run.(pigAnimationStarted := false, duckReactionStarted := false);
    }

    /** onKeyDown. */
    method OnKeyDown(code: string, key: string, now: int)
      requires Valid()
      modifies this
      ensures Valid()
      ensures Snapshot() == AfterKey(old(Snapshot()), code, key, now)
    {
      match KeyCommand(code, key)
      case CameraKey =>
      case ToggleBallKey => shown := shown.(showBall := !shown.showBall);
      case TogglePigKey => shown := shown.(showPig := !shown.showPig);
      case ToggleDuckKey => shown := shown.(showDuck := !shown.showDuck);
      case ToggleNetKey => shown := shown.(showNet := !shown.showNet);
      case ControlsKey => shown := shown.(controlsVisible := !shown.controlsVisible);
      case KickKey =>
        if ball.present && shown.showBall && !ball.animating {
          KickBall(now);
        }
      case StartKey => StartActionSequence(now);
      case PigClipKey(i) =>
        if cast.pig.loaded && i < |cast.pig.clips| {
          cast := cast.(pig := StopAllAndPlay(cast.pig, i));
        }
      case DuckClipKey(i) =>
        if cast.duck.loaded && i < |cast.duck.clips| {
          cast := cast.(duck := StopAllAndPlay(cast.duck, i));
        }
      case ResetKey =>
        if cast.duck.loaded && ResetDuckClip < |cast.duck.clips| {
          cast := cast.(duck := StopAllAndPlay(cast.duck, ResetDuckClip));
        }
        ResetScene();
      case OtherKey =>
    }
  }
}

=== FILE: motion.dfy ===
/**
  * Positions and the interpolation arithmetic of the ball's flight, over exact
  * reals (an idealisation of JavaScript's double-precision numbers).
  */
module Motion {

  datatype Vec3 = Vec3(x: real, y: real, z: real)

  const Origin := Vec3(0.0, 0.0, 0.0)

  function Min(a: real, b: real): real { if a <= b then a else b }
  function Max(a: real, b: real): real { if a <= b then b else a }

  /** `THREE.MathUtils.lerp(a, b, t)`, which computes (1 - t)·a + t·b. */
  function Lerp(a: real, b: real, t: real): (r: real)
    ensures t == 0.0 ==> r == a
    ensures t == 1.0 ==> r == b
  {
    (1.0 - t) * a + t * b
  }

  /** For t in [0, 1], the interpolated value lies between the two end values. */
  lemma LerpWithin(a: real, b: real, t: real)
    requires 0.0 <= t <= 1.0
    ensures Min(a, b) <= Lerp(a, b, t) <= Max(a, b)
  {
    assert Lerp(a, b, t) == a + t * (b - a);
    if a <= b {
      ScaleWithin(t, b - a);
    } else {
      ScaleWithin(t, a - b);
      assert t * (b - a) == -(t * (a - b));
    }
  }

  /** Interpolation moves monotonically from `a` towards `b` as `t` grows. */
  lemma LerpMonotone(a: real, b: real, s: real, t: real)
    requires s <= t
    ensures a <= b ==> Lerp(a, b, s) <= Lerp(a, b, t)
    ensures b <= a ==> Lerp(a, b, t) <= Lerp(a, b, s)
  {
    assert Lerp(a, b, t) - Lerp(a, b, s) == (t - s) * (b - a);
    if a <= b {
      assert (t - s) * (b - a) >= 0.0 by { ProductNonNegative(t - s, b - a); }
    } else {
      assert (t - s) * (a - b) >= 0.0 by { ProductNonNegative(t - s, a - b); }
    }
  }

  lemma ProductNonNegative(u: real, v: real)
    requires u >= 0.0 && v >= 0.0
    ensures u * v >= 0.0
  {
  }

  lemma ScaleWithin(t: real, d: real)
    requires 0.0 <= t <= 1.0 && d >= 0.0
    ensures 0.0 <= t * d <= d
  {
    assert d - t * d == (1.0 - t) * d;
    ProductNonNegative(1.0 - t, d);
    ProductNonNegative(t, d);
  }

  /** `easeInOutQuad` (old.js): 2t² below one half, 1 - (2 - 2t)²/2 from one half on. */
  function EaseInOutQuad(t: real): (r: real)
    ensures t == 0.0 ==> r == 0.0
    ensures t == 0.5 ==> r == 0.5
    ensures t == 1.0 ==> r == 1.0
  {
    if t < 0.5 then 2.0 * t * t else 1.0 - (-2.0 * t + 2.0) * (-2.0 * t + 2.0) / 2.0
  }

  lemma SquareMonotone(a: real, b: real)
    requires 0.0 <= a <= b
    ensures a * a <= b * b
  {
    assert b * b - a * a == (b - a) * (b + a);
    ProductNonNegative(b - a, b + a);
  }

  /** On [0, 1] the easing stays in [0, 1]. */
  lemma EaseWithin(t: real)
    requires 0.0 <= t <= 1.0
    ensures 0.0 <= EaseInOutQuad(t) <= 1.0
  {
    if t < 0.5 {
      SquareMonotone(t, 0.5);
      ProductNonNegative(t, t);
    } else {
      var u := 1.0 - t;
      assert EaseInOutQuad(t) == 1.0 - 2.0 * u * u;
      SquareMonotone(u, 0.5);
      ProductNonNegative(u, u);
    }
  }

  /** On [0, 1] the easing is non-decreasing. */
  lemma EaseMonotone(s: real, t: real)
    requires 0.0 <= s <= t <= 1.0
    ensures EaseInOutQuad(s) <= EaseInOutQuad(t)
  {
    if t < 0.5 {
      SquareMonotone(s, t);
    } else if s >= 0.5 {
      assert EaseInOutQuad(s) == 1.0 - 2.0 * (1.0 - s) * (1.0 - s);
      assert EaseInOutQuad(t) == 1.0 - 2.0 * (1.0 - t) * (1.0 - t);
      SquareMonotone(1.0 - t, 1.0 - s);
    } else {
      SquareMonotone(s, 0.5);
      assert EaseInOutQuad(t) == 1.0 - 2.0 * (1.0 - t) * (1.0 - t);
      SquareMonotone(1.0 - t, 0.5);
    }
  }

  /** The easing is point-symmetric about (1/2, 1/2). */
  lemma EaseSymmetric(t: real)
    ensures EaseInOutQuad(1.0 - t) == 1.0 - EaseInOutQuad(t)
  {
    if t < 0.5 {
      assert EaseInOutQuad(1.0 - t) == 1.0 - (2.0 * t) * (2.0 * t) / 2.0;
    } else if t > 0.5 {
      assert EaseInOutQuad(t) == 1.0 - (2.0 - 2.0 * t) * (2.0 - 2.0 * t) / 2.0;
    }
  }

  /**
    * An eased interpolation between two end values never leaves the segment
    * between them (old.js moves the ball's x and z this way).
    */
  lemma EasedLerpWithin(a: real, b: real, t: real)
    requires 0.0 <= t <= 1.0
    ensures Min(a, b) <= Lerp(a, b, EaseInOutQuad(t)) <= Max(a, b)
  {
    EaseWithin(t);
    LerpWithin(a, b, EaseInOutQuad(t));
  }

  /**
    * The flight progress of main.js: elapsed/duration, capped at 1. It
    * reaches 1 exactly when the duration has elapsed.
    */
  function Progress(elapsed: int, duration: int): (p: real)
    requires duration > 0
    ensures p <= 1.0
    ensures p == 1.0 <==> elapsed >= duration
    ensures elapsed >= 0 ==> p >= 0.0
  {
    Min(elapsed as real / duration as real, 1.0)
  }
}

=== FILE: old_scene.dfy ===
/**
  * The older scene variant (js/old.js): a timed action sequence whose
  * timeline events each fire once, a ball flight started from the kick clip's
  * duration, the reset and keyboard handlers, and the debug nudge of a
  * selected actor.
  *
  * Each operation that changes the scene is a method of class `Scene`, proved
  * to move the scene's snapshot (`SceneState`) exactly as a pure transition
  * function says; the properties of the sequence are lemmas about those
  * functions.
  */
module OldScene {
  import opened Clips
  import opened Motion
  import opened Keys

  // ---------------------------------------------------------------------------
  // Constants
  // ---------------------------------------------------------------------------

  const InitialPig := Vec3(0.0, 0.0, -3.9)
  const InitialDuck := Vec3(0.0, 0.0, 2.5)
  const InitialBall := Vec3(-0.8, 0.0, -1.6)
  /** The ball always flies to this z coordinate. */
  const BallEndZ: real := 2.6
  /** Length of the ball's flight, in milliseconds. */
  const FlightMs: int := 1000
  /** The ball is launched this many milliseconds before the kick clip ends. */
  const KickLeadMs: real := 1000.0
  /** The duck's save clip plays 10% faster. */
  const SaveSpeed: real := 1.1
  /** Per-frame spin of the flying ball. */
  const SpinX: real := 0.1
  const SpinZ: real := 0.08
  /** Distance of one debug nudge. */
  const MoveStep: real := 0.1
  /** The pig kick clip. */
  const KickClip: nat := 1
  /** The keys that pick a duck clip, in clip order. */
  const DuckKeys: string := "asdfg"

  // ---------------------------------------------------------------------------
  // The timeline
  // ---------------------------------------------------------------------------

  datatype EventAction = PigKick | DuckSave

  /** An event of the action sequence; `time` is milliseconds after the start. */
  datatype TimelineEvent = TimelineEvent(time: int, action: EventAction, executed: bool)

  /** The fixed timeline: the kick and the save, both at time 0. */
  const Timeline := [TimelineEvent(0, PigKick, false), TimelineEvent(0, DuckSave, false)]

  /** An event fires at `elapsed` if it has not fired yet and its time has come. */
  predicate Due(e: TimelineEvent, elapsed: int)
  {
    !e.executed && elapsed >= e.time
  }

  predicate AllExecuted(events: seq<TimelineEvent>)
  {
    forall i :: 0 <= i < |events| ==> events[i].executed
  }

  function MarkOne(e: TimelineEvent, elapsed: int): TimelineEvent
  {
    if Due(e, elapsed) then e.(executed := true) else e
  }

  /**
    * The flags after one pass at `elapsed`: exactly the due events become
    * executed, and no flag goes back to false.
    */
  function Mark(events: seq<TimelineEvent>, elapsed: int): (r: seq<TimelineEvent>)
    ensures |r| == |events|
    ensures forall i :: 0 <= i < |events| ==>
      && r[i].time == events[i].time
      && r[i].action == events[i].action
      && (r[i].executed <==> events[i].executed || events[i].time <= elapsed)
  {
    seq(|events|, i requires 0 <= i < |events| => MarkOne(events[i], elapsed))
  }

  /** All flags cleared, times and actions kept. */
  function Cleared(events: seq<TimelineEvent>): (r: seq<TimelineEvent>)
    ensures |r| == |events|
    ensures forall i :: 0 <= i < |events| ==>
      r[i].time == events[i].time && r[i].action == events[i].action && !r[i].executed
  {
    seq(|events|, i requires 0 <= i < |events| => events[i].(executed := false))
  }

  /** What firing events changes: the two mixers and the recorded kick duration (ms). */
  datatype Cast = Cast(pig: Mixer, duck: Mixer, kickDuration: real)
  {
    ghost predicate Valid() { pig.Valid() && duck.Valid() }
  }

  /**
    * The effect of one event. The kick plays clip 1 once (if the pig has at
    * least two clips) and records its duration in milliseconds; the save plays
    * the duck's save clip once at 110% speed (if the duck has clips).
    */
  function Perform(c: Cast, a: EventAction): (r: Cast)
    requires c.Valid()
    ensures r.Valid()
    ensures r.pig.loaded == c.pig.loaded && r.pig.clips == c.pig.clips
    ensures r.duck.loaded == c.duck.loaded && r.duck.clips == c.duck.clips
    ensures a == PigKick ==> r.duck == c.duck
    ensures a == PigKick && |c.pig.clips| > KickClip ==>
      && r.pig.active == Some(KickClip)
      && r.pig.settings[KickClip].loopOnce && r.pig.settings[KickClip].clampWhenFinished
      && r.pig.settings[KickClip].timeScale == c.pig.settings[KickClip].timeScale
      && (forall j :: 0 <= j < |c.pig.clips| && j != KickClip ==> r.pig.settings[j] == c.pig.settings[j])
      && r.kickDuration == c.pig.clips[KickClip].duration * 1000.0
    ensures a == PigKick && |c.pig.clips| <= KickClip ==> r == c
    ensures a == DuckSave ==> r.pig == c.pig && r.kickDuration == c.kickDuration
    ensures a == DuckSave && |c.duck.clips| > 0 ==>
      var k := OldSaveClipIndex(Names(c.duck.clips));
      && r.duck.active == Some(k)
      && r.duck.settings[k] == Settings(true, true, SaveSpeed)
      && (forall j :: 0 <= j < |c.duck.clips| && j != k ==> r.duck.settings[j] == c.duck.settings[j])
    ensures a == DuckSave && |c.duck.clips| == 0 ==> r == c
  {
    match a
    case PigKick =>
      if |c.pig.clips| > KickClip then
        Cast(PlayOnce(c.pig, KickClip), c.duck, c.pig.clips[KickClip].duration * 1000.0)
      else c
    case DuckSave =>
      if |c.duck.clips| > 0 then
        Cast(c.pig, PlayOnceAtSpeed(c.duck, OldSaveClipIndex(Names(c.duck.clips)), SaveSpeed), c.kickDuration)
      else c
  }

  /** The effects of the events due at `elapsed`, performed in timeline order. */
  function FireDue(c: Cast, events: seq<TimelineEvent>, elapsed: int): (r: Cast)
    requires c.Valid()
    ensures r.Valid()
    decreases |events|
  {
    if events == [] then c
    else
      var before := FireDue(c, events[..|events| - 1], elapsed);
      var e := events[|events| - 1];
      if Due(e, elapsed) then Perform(before, e.action) else before
  }

  /** When no event is due, firing changes nothing. */
  lemma {:induction false} FireDueIdle(c: Cast, events: seq<TimelineEvent>, elapsed: int)
    requires c.Valid()
    requires forall i :: 0 <= i < |events| ==> !Due(events[i], elapsed)
    ensures FireDue(c, events, elapsed) == c
    decreases |events|
  {
    if events != [] {
      var prefix := events[..|events| - 1];
      assert forall i :: 0 <= i < |prefix| ==> prefix[i] == events[i];
      FireDueIdle(c, prefix, elapsed);
    }
  }

  /** Extending the fired prefix by one event performs that event if it is due. */
  lemma FireDuePrefix(c: Cast, events: seq<TimelineEvent>, i: int, elapsed: int)
    requires c.Valid() && 0 <= i < |events|
    ensures var before := FireDue(c, events[..i], elapsed);
      FireDue(c, events[..i + 1], elapsed) ==
        if Due(events[i], elapsed) then Perform(before, events[i].action) else before
  {
    assert events[..i + 1][..i] == events[..i];
  }

  /**
    * An executed event is never re-run: after a pass at `e1`, a later pass at
    * `e2` fires exactly the events whose time lies in (e1, e2], and one at no
    * later time fires nothing.
    */
  lemma NoRefire(c: Cast, events: seq<TimelineEvent>, e1: int, e2: int)
    requires c.Valid()
    ensures forall i :: 0 <= i < |events| ==>
      (Due(Mark(events, e1)[i], e2) <==> !events[i].executed && e1 < events[i].time <= e2)
    ensures e2 <= e1 ==> FireDue(c, Mark(events, e1), e2) == c
  {
    if e2 <= e1 {
      FireDueIdle(c, Mark(events, e1), e2);
    }
  }

  /** On the fixed timeline, a pass at elapsed time 0 or later fires both events: kick, then save. */
  lemma TimelineFiresBoth(c: Cast, elapsed: int)
    requires c.Valid() && elapsed >= 0
    ensures FireDue(c, Timeline, elapsed) == Perform(Perform(c, PigKick), DuckSave)
    ensures AllExecuted(Mark(Timeline, elapsed))
  {
    assert Timeline[..1][..0] == [];
    assert Timeline[..1] == [TimelineEvent(0, PigKick, false)];
  }

  // ---------------------------------------------------------------------------
  // The scene's state
  // ---------------------------------------------------------------------------

  /** The action sequence's bookkeeping; `endTimers` counts pending 500 ms end callbacks. */
  datatype Run = Run(events: seq<TimelineEvent>, running: bool, startTime: int,
                     ballAnimationStarted: bool, endTimers: nat)

  /** Which actors exist (models or placeholders) and where the pig and the duck stand. */
  datatype Stage = Stage(hasPig: bool, hasDuck: bool, pigPos: Vec3, duckPos: Vec3)

  /** The ball and its flight: start time and end points of the current flight. */
  datatype Ball = Ball(pos: Vec3, rot: Vec3, animating: bool, startTime: int, from: Vec3, to: Vec3)

  datatype Actor = PigActor | DuckActor | BallActor

  datatype Selection = Selection(selected: Option<Actor>, selectionMode: bool, movementMode: bool)

  /**
    * A snapshot of everything the handlers read and write. The ball always
    * exists in this variant (it is built synchronously at start-up).
    */
  datatype SceneState = SceneState(run: Run, cast: Cast, stage: Stage, ball: Ball, ui: Selection)
  {
    ghost predicate Valid() { cast.Valid() }
  }

  // ---------------------------------------------------------------------------
  // Transitions, as functions of the snapshot
  // ---------------------------------------------------------------------------

  /** startActionSequence: no guard of its own. */
  function Started(s: SceneState, now: int): SceneState
  {
    s.(run := Run(Cleared(s.run.events), true, now, false, s.run.endTimers),
       stage := Homed(s.stage),
       ball := s.ball.(pos := InitialBall))
  }

  /** The timeline loop of updateActionSequence. */
  function EventsFired(s: SceneState, elapsed: int): (r: SceneState)
    requires s.Valid()
    ensures r.Valid()
  {
    s.(run := s.run.(events := Mark(s.run.events, elapsed)), cast := FireDue(s.cast, s.run.events, elapsed))
  }

  /** The ball is launched once a kick duration is known and its lead time has come. */
  predicate LaunchDue(s: SceneState, elapsed: int)
  {
    !s.run.ballAnimationStarted && s.cast.kickDuration > 0.0 && elapsed as real >= s.cast.kickDuration - KickLeadMs
  }

  /** startBallAnimation: fly from where the ball is to z = 2.6. */
  function Launch(b: Ball, now: int): Ball
  {
    b.(animating := true, startTime := now, from := b.pos, to := Vec3(b.pos.x, b.pos.y, BallEndZ))
  }

  /**
    * updateBallAnimation. `arc` stands for the height term 1.5·sin(π·u) of the
    * eased progress u.
    */
  function Fly(b: Ball, now: int, arc: real -> real): Ball
  {
    var elapsed := now - b.startTime;
    if elapsed < FlightMs then
      var u := EaseInOutQuad(elapsed as real / FlightMs as real);
      b.(pos := Vec3(Lerp(b.from.x, b.to.x, u), b.from.y + arc(u), Lerp(b.from.z, b.to.z, u)),
         rot := Vec3(b.rot.x + SpinX, b.rot.y, b.rot.z + SpinZ))
    else
      b.(pos := b.to, animating := false)
  }

  /** The frame step of a ball that may or may not be flying. */
  function Step(b: Ball, now: int, arc: real -> real): Ball
  {
    if b.animating then Fly(b, now, arc) else b
  }

  /** The part of updateActionSequence up to the launch decision. */
  function LaunchChecked(s: SceneState, now: int): (r: SceneState)
    requires s.Valid()
    ensures r.Valid()
  {
    var elapsed := now - s.run.startTime;
    var s1 := EventsFired(s, elapsed);
    if LaunchDue(s1, elapsed)
    then s1.(run := s1.run.(ballAnimationStarted := true), ball := Launch(s1.ball, now))
    else s1
  }

  /** The end-of-run test: it schedules one more deferred end when it holds. */
  function EndChecked(s: SceneState): SceneState
  {
    if AllExecuted(s.run.events) && !s.ball.animating && s.run.running
    then s.(run := s.run.(endTimers := s.run.endTimers + 1))
    else s
  }

  /** updateActionSequence at time `now`. */
  function Updated(s: SceneState, now: int, arc: real -> real): (r: SceneState)
    requires s.Valid()
    ensures r.Valid()
  {
    var s2 := LaunchChecked(s, now);
    EndChecked(s2.(ball := Step(s2.ball, now, arc)))
  }

  /** One frame of the render loop: the ball, then the sequence if it runs. */
  function Framed(s: SceneState, now: int, arc: real -> real): (r: SceneState)
    requires s.Valid()
    ensures r.Valid()
  {
    var s1 := s.(ball := Step(s.ball, now, arc));
    if s1.run.running then Updated(s1, now, arc) else s1
  }

  /** One deferred end-of-run callback runs. */
  function EndTimerFired(r: Run): Run
  {
    if r.endTimers > 0 then r.(endTimers := r.endTimers - 1, running := false) else r
  }

  /** The pig and the duck, where present, back at their initial positions. */
  function Homed(st: Stage): Stage
  {
    st.(pigPos := if st.hasPig then InitialPig else st.pigPos,
        duckPos := if st.hasDuck then InitialDuck else st.duckPos)
  }

  /** resetScene's pig clip: clip 3 ("Stand") if it exists, else clip 0. */
  function PigReset(m: Mixer): (r: Mixer)
    requires m.Valid()
    ensures r.Valid()
  {
    if m.loaded && |m.clips| > 0 then m.(active := Some(PigResetClipIndex(|m.clips|))) else m
  }

  /** resetScene's duck clip: the first stand/idle clip, else clip 0. */
  function DuckReset(m: Mixer): (r: Mixer)
    requires m.Valid()
    ensures r.Valid()
  {
    if m.loaded && |m.clips| > 0 then m.(active := Some(StandClipIndex(Names(m.clips)))) else m
  }

  /** resetScene: positions, the ball's spin, default clips, no selection. */
  function AfterReset(s: SceneState): (r: SceneState)
    requires s.Valid()
    ensures r.Valid()
  {
    s.(stage := Homed(s.stage),
       ball := s.ball.(pos := InitialBall, rot := Origin),
       cast := s.cast.(pig := PigReset(s.cast.pig), duck := DuckReset(s.cast.duck)),
       ui := s.ui.(selected := None))
  }

  // ---------------------------------------------------------------------------
  // Keys
  // ---------------------------------------------------------------------------

  datatype Direction = Up | Down | Left | Right | Raise | Lower

  /** The nudge keys: arrows move in the ground plane, PageUp/PageDown vertically. */
  function MoveDirection(key: string): Option<Direction>
  {
    if key == "ArrowUp" then Some(Up)
    else if key == "ArrowDown" then Some(Down)
    else if key == "ArrowLeft" then Some(Left)
    else if key == "ArrowRight" then Some(Right)
    else if key == "PageUp" then Some(Raise)
    else if key == "PageDown" then Some(Lower)
    else None
  }

  /** `r` differs from `p` in exactly one coordinate, by one step. */
  ghost predicate OneStepApart(p: Vec3, r: Vec3)
  {
    || (r.y == p.y && r.z == p.z && (r.x == p.x + MoveStep || r.x == p.x - MoveStep))
    || (r.x == p.x && r.z == p.z && (r.y == p.y + MoveStep || r.y == p.y - MoveStep))
    || (r.x == p.x && r.y == p.y && (r.z == p.z + MoveStep || r.z == p.z - MoveStep))
  }

  /** The position change of moveSelectedObject for one direction. */
  function Nudge(p: Vec3, d: Direction): (r: Vec3)
    ensures OneStepApart(p, r)
  {
    match d
    case Up => p.(z := p.z - MoveStep)
    case Down => p.(z := p.z + MoveStep)
    case Left => p.(x := p.x - MoveStep)
    case Right => p.(x := p.x + MoveStep)
    case Raise => p.(y := p.y + MoveStep)
    case Lower => p.(y := p.y - MoveStep)
  }

  function Opposite(d: Direction): Direction
  {
    match d
    case Up => Down
    case Down => Up
    case Left => Right
    case Right => Left
    case Raise => Lower
    case Lower => Raise
  }

  /** A nudge followed by the opposite nudge returns the object to where it was. */
  lemma NudgeUndone(p: Vec3, d: Direction)
    ensures Nudge(Nudge(p, d), Opposite(d)) == p
  {
  }

  /** moveSelectedObject: only the selected actor moves. */
  function Moved(s: SceneState, d: Direction): SceneState
  {
    match s.ui.selected
    case None => s
    case Some(PigActor) => s.(stage := s.stage.(pigPos := Nudge(s.stage.pigPos, d)))
    case Some(DuckActor) => s.(stage := s.stage.(duckPos := Nudge(s.stage.duckPos, d)))
    case Some(BallActor) => s.(ball := s.ball.(pos := Nudge(s.ball.pos, d)))
  }

  /** The cases of onKeyDown's switch. */
  datatype Command =
    | PigClipKey(index: nat)
    | DuckClipKey(index: nat)
    | SelectDuckKey
    | SelectPigKey
    | ResetKey
    | StartKey
    | SelectionModeKey
    | SelectBallKey
    | MoveKey(dir: Direction)
    | OtherKey

  function KeyCommand(key: string): Command
  {
    if DigitIndex(key).Some? then PigClipKey(DigitIndex(key).value)
    else if LetterIndex(DuckKeys, key).Some? then DuckClipKey(LetterIndex(DuckKeys, key).value)
    else if key == "q" then SelectDuckKey
    else if key == "w" then SelectPigKey
    else if key == "0" then ResetKey
    else if key == "9" then StartKey
    else if key == "p" then SelectionModeKey
    else if key == "b" then SelectBallKey
    else if MoveDirection(key).Some? then MoveKey(MoveDirection(key).value)
    else OtherKey
  }

  /** onKeyDown, for the key's case. */
  function Commanded(s: SceneState, c: Command, now: int): (r: SceneState)
    requires s.Valid()
    ensures r.Valid()
  {
    match c
    case PigClipKey(i) =>
      if i < |s.cast.pig.clips| then s.(cast := s.cast.(pig := PlayLooping(s.cast.pig, i))) else s
    case DuckClipKey(i) =>
      if i < |s.cast.duck.clips| then s.(cast := s.cast.(duck := PlayAtNormalSpeed(s.cast.duck, i))) else s
    case SelectDuckKey =>
      if s.stage.hasDuck then s.(ui := s.ui.(selected := Some(DuckActor), movementMode := true)) else s
    case SelectPigKey =>
      if s.stage.hasPig then s.(ui := s.ui.(selected := Some(PigActor), movementMode := true)) else s
    case ResetKey => AfterReset(s)
    case StartKey => if !s.run.running then Started(s, now) else s
    case SelectionModeKey =>
      if s.ui.selectionMode && s.ui.selected.Some? then s.(ui := Selection(None, false, false))
      else s.(ui := s.ui.(selectionMode := !s.ui.selectionMode))
    case SelectBallKey => s.(ui := s.ui.(selected := Some(BallActor), movementMode := true))
    case MoveKey(d) => if s.ui.selected.Some? && s.ui.movementMode then Moved(s, d) else s
    case OtherKey => s
  }

  /** onKeyDown. */
  function AfterKey(s: SceneState, key: string, now: int): (r: SceneState)
    requires s.Valid()
    ensures r.Valid()
  {
    Commanded(s, KeyCommand(key), now)
  }

  // ---------------------------------------------------------------------------
  // Properties of the transitions
  // ---------------------------------------------------------------------------

  /** Start clears every flag, keeps the timeline's times and actions, and records the start. */
  lemma StartResets(s: SceneState, now: int)
    ensures var r := Started(s, now).run;
      && |r.events| == |s.run.events|
      && (forall i :: 0 <= i < |s.run.events| ==>
            && !r.events[i].executed
            && r.events[i].time == s.run.events[i].time
            && r.events[i].action == s.run.events[i].action)
      && !r.ballAnimationStarted && r.running && r.startTime == now
    ensures Started(s, now).ball.pos == InitialBall
  {
  }

  /** Key '9' starts a run only when none is running; during a run it changes nothing. */
  lemma NineStartsOnlyWhenIdle(s: SceneState, now: int)
    requires s.Valid()
    ensures s.run.running ==> AfterKey(s, "9", now) == s
    ensures !s.run.running ==> AfterKey(s, "9", now) == Started(s, now)
  {
    assert KeyCommand("9") == StartKey;
  }

  /**
    * One update at elapsed time e marks executed exactly the events that were
    * not executed and whose time is at most e; no flag returns to false.
    */
  lemma UpdateMarksDueEvents(s: SceneState, now: int, arc: real -> real)
    requires s.Valid()
    ensures var r := Updated(s, now, arc).run.events;
      && |r| == |s.run.events|
      && forall i :: 0 <= i < |s.run.events| ==>
           (r[i].executed <==> s.run.events[i].executed || s.run.events[i].time <= now - s.run.startTime)
  {
  }

  /**
    * The ball is launched at most once per run: once launched, later updates
    * keep the launch time and the flight's end points.
    */
  lemma LaunchAtMostOnce(s: SceneState, now: int, arc: real -> real)
    requires s.Valid() && s.run.ballAnimationStarted
    ensures var r := Updated(s, now, arc);
      && r.run.ballAnimationStarted
      && r.ball.startTime == s.ball.startTime
      && r.ball.from == s.ball.from && r.ball.to == s.ball.to
  {
    assert LaunchChecked(s, now).ball == s.ball;
  }

  /**
    * An update launches the ball exactly when a kick duration d > 0 is known
    * and the elapsed time is at least d - 1000; the flight starts at `now`
    * from the ball's position, towards the same x and y with z = 2.6.
    */
  lemma LaunchOnlyWhenDue(s: SceneState, now: int, arc: real -> real)
    requires s.Valid() && !s.run.ballAnimationStarted
    ensures var r := Updated(s, now, arc);
      var elapsed := now - s.run.startTime;
      var d := FireDue(s.cast, s.run.events, elapsed).kickDuration;
      && (r.run.ballAnimationStarted <==> d > 0.0 && elapsed as real >= d - KickLeadMs)
      && (r.run.ballAnimationStarted ==>
            && r.ball.startTime == now
            && r.ball.from == s.ball.pos
            && r.ball.to == Vec3(s.ball.pos.x, s.ball.pos.y, BallEndZ))
  {
    var s2 := LaunchChecked(s, now);
    assert s2.run.ballAnimationStarted ==> s2.ball == Launch(s.ball, now);
  }

  /**
    * An update schedules the end of the run only when every event has
    * executed, the ball is not flying and the run is on; and then only one.
    * It never clears `running` itself.
    */
  lemma EndOnlyWhenDone(s: SceneState, now: int, arc: real -> real)
    requires s.Valid()
    ensures var r := Updated(s, now, arc);
      && (r.run.endTimers == s.run.endTimers || r.run.endTimers == s.run.endTimers + 1)
      && (r.run.endTimers == s.run.endTimers + 1 <==> AllExecuted(r.run.events) && !r.ball.animating && s.run.running)
      && r.run.running == s.run.running
  {
    var s2 := LaunchChecked(s, now);
    assert s2.run.running == s.run.running && s2.run.endTimers == s.run.endTimers;
  }

  /** Once the flight has lasted 1000 ms, the ball is exactly at its end point and stops. */
  lemma FlightSnapsToEnd(b: Ball, now: int, arc: real -> real)
    requires now - b.startTime >= FlightMs
    ensures Fly(b, now, arc).pos == b.to
    ensures !Fly(b, now, arc).animating
  {
  }

  /** During the flight, x and z stay between the flight's start and end values. */
  lemma FlightStaysOnSegment(b: Ball, now: int, arc: real -> real)
    requires 0 <= now - b.startTime < FlightMs
    ensures var p := Fly(b, now, arc).pos;
      && Min(b.from.x, b.to.x) <= p.x <= Max(b.from.x, b.to.x)
      && Min(b.from.z, b.to.z) <= p.z <= Max(b.from.z, b.to.z)
    ensures Fly(b, now, arc).animating == b.animating
  {
    var t := (now - b.startTime) as real / FlightMs as real;
    EasedLerpWithin(b.from.x, b.to.x, t);
    EasedLerpWithin(b.from.z, b.to.z, t);
  }

  /**
    * The worked example: from (-0.8, 0, -1.5) to (-0.8, 0, 2.6), half-way
    * through the flight the ball is at x = -0.8, z = 0.55 and at the arc's
    * height for progress 1/2; at 1000 ms it is exactly at the end and stops.
    */
  lemma FlightExample(b: Ball, arc: real -> real)
    requires b.from == Vec3(-0.8, 0.0, -1.5) && b.to == Vec3(-0.8, 0.0, 2.6)
    requires b.startTime == 0
    ensures Fly(b, 500, arc).pos == Vec3(-0.8, arc(0.5), 0.55)
    ensures Fly(b, 1000, arc).pos == Vec3(-0.8, 0.0, 2.6)
    ensures !Fly(b, 1000, arc).animating
  {
    assert EaseInOutQuad(500 as real / FlightMs as real) == 0.5;
  }

  /**
    * While a run is on, a frame of a flying ball steps the flight twice (once
    * in the render loop, once in the sequence update): the spin about x grows
    * by twice the per-step amount when both steps are mid-flight.
    */
  lemma RunningFrameStepsTwice(s: SceneState, now: int, arc: real -> real)
    requires s.Valid() && s.run.running && s.run.ballAnimationStarted && s.ball.animating
    requires 0 <= now - s.ball.startTime < FlightMs
    ensures Framed(s, now, arc).ball.rot.x == s.ball.rot.x + 2.0 * SpinX
  {
    var s1 := s.(ball := Fly(s.ball, now, arc));
    assert LaunchChecked(s1, now).ball == s1.ball;
  }

  /** Frames, keys and resets never end a run; only the deferred end callback does. */
  lemma OnlyEndTimerStops(s: SceneState, now: int, key: string, arc: real -> real)
    requires s.Valid() && s.run.running
    ensures Framed(s, now, arc).run.running
    ensures AfterKey(s, key, now).run.running
    ensures EndTimerFired(s.run).running <==> s.run.endTimers == 0
  {
    EndOnlyWhenDone(s.(ball := Step(s.ball, now, arc)), now, arc);
  }

  /**
    * As written, start does not cancel end callbacks queued by the previous
    * run: pressed while one is still pending, '9' starts a run with nothing
    * executed that the stale callback then ends.
    */
  lemma StaleEndTimerEndsRestart(s: SceneState, now: int)
    requires s.Valid() && !s.run.running && s.run.endTimers > 0 && |s.run.events| > 0
    ensures var r := AfterKey(s, "9", now);
      && r.run.running && !AllExecuted(r.run.events)
      && !EndTimerFired(r.run).running
  {
    NineStartsOnlyWhenIdle(s, now);
    assert !AfterKey(s, "9", now).run.events[0].executed;
  }

  /**
    * As written, the end check does not wait for the ball: both events are
    * due at time 0, so with a kick clip longer than one second the first
    * frame queues an end callback while the launch (at the kick's duration
    * less one second) is still to come. The callback runs 500 ms later; with
    * a kick clip longer than 1.5 s that is before the launch time.
    */
  lemma EndQueuedBeforeLaunch(s: SceneState, now: int, arc: real -> real)
    requires s.Valid() && s.run.running && s.run.events == Timeline && s.run.startTime == now
    requires !s.run.ballAnimationStarted && !s.ball.animating
    requires |s.cast.pig.clips| > KickClip && s.cast.pig.clips[KickClip].duration > 1.0
    ensures var r := Framed(s, now, arc);
      && r.run.running && r.run.endTimers == s.run.endTimers + 1
      && !r.run.ballAnimationStarted && r.cast.kickDuration > KickLeadMs
  {
    TimelineFiresBoth(s.cast, 0);
  }

  /**
    * Once a run has ended, frames no longer update the sequence, and keys other
    * than '9' do not touch it: a ball not launched by then is never launched.
    */
  lemma NoLaunchAfterEnd(s: SceneState, now: int, key: string, arc: real -> real)
    requires s.Valid() && !s.run.running
    ensures Framed(s, now, arc).run == s.run
    ensures !s.ball.animating ==> Framed(s, now, arc).ball == s.ball
    ensures KeyCommand(key) != StartKey ==> AfterKey(s, key, now).run == s.run
    ensures KeyCommand(key) != StartKey ==> AfterKey(s, key, now).ball.animating == s.ball.animating
  {
    assert Framed(s, now, arc) == s.(ball := Step(s.ball, now, arc));
  }

  /** The intended start: as `Started`, and every pending end callback is dropped. */
  function StartedCancelling(s: SceneState, now: int): SceneState
  {
    var r := Started(s, now);
    r.(run := r.run.(endTimers := 0))
  }

  /** onKeyDown with the intended start behind key '9'. */
  function AfterKeyCancelling(s: SceneState, key: string, now: int): (r: SceneState)
    requires s.Valid()
    ensures r.Valid()
  {
    if KeyCommand(key) == StartKey && !s.run.running then StartedCancelling(s, now)
    else AfterKey(s, key, now)
  }

  /**
    * The intended end check: as `EndChecked`, and it also waits until the
    * ball has been launched, unless no kick duration is known (then no
    * launch can come).
    */
  function EndCheckedAfterLaunch(s: SceneState): SceneState
  {
    if AllExecuted(s.run.events) && !s.ball.animating && s.run.running
       && (s.run.ballAnimationStarted || s.cast.kickDuration <= 0.0)
    then s.(run := s.run.(endTimers := s.run.endTimers + 1))
    else s
  }

  /**
    * The intended end check differs from the written one only before the
    * launch: once the ball has been launched (or no launch can come) they
    * agree, and before that the intended one queues nothing.
    */
  lemma EndCheckedAfterLaunchAgrees(s: SceneState)
    ensures s.run.ballAnimationStarted || s.cast.kickDuration <= 0.0 ==>
      EndCheckedAfterLaunch(s) == EndChecked(s)
    ensures !(s.run.ballAnimationStarted || s.cast.kickDuration <= 0.0) ==>
      EndCheckedAfterLaunch(s) == s
  {
  }

  /** updateActionSequence with the intended end check. */
  function UpdatedAfterLaunch(s: SceneState, now: int, arc: real -> real): (r: SceneState)
    requires s.Valid()
    ensures r.Valid()
  {
    var s2 := LaunchChecked(s, now);
    EndCheckedAfterLaunch(s2.(ball := Step(s2.ball, now, arc)))
  }

  /** One frame of the render loop with the intended end check. */
  function FramedAfterLaunch(s: SceneState, now: int, arc: real -> real): (r: SceneState)
    requires s.Valid()
    ensures r.Valid()
  {
    var s1 := s.(ball := Step(s.ball, now, arc));
    if s1.run.running then UpdatedAfterLaunch(s1, now, arc) else s1
  }

  /**
    * An end callback is pending only for a run that is over: every event has
    * executed, and the ball has been launched and has landed (or no launch can
    * come).
    */
  ghost predicate EndPendingOnlyWhenDone(s: SceneState)
  {
    s.run.endTimers > 0 ==>
      && AllExecuted(s.run.events)
      && !s.ball.animating
      && (s.run.ballAnimationStarted || s.cast.kickDuration <= 0.0)
  }

  /**
    * With the intended start, a fresh run has no end callback pending, so no
    * callback can end it before it has begun.
    */
  lemma CancellingStartHasNoStaleEnd(s: SceneState, now: int)
    ensures var r := StartedCancelling(s, now);
      && r.(run := r.run.(endTimers := s.run.endTimers)) == Started(s, now)
      && r.run.running && EndTimerFired(r.run) == r.run
      && EndPendingOnlyWhenDone(r)
  {
  }

  /**
    * With the intended start, in the first frame of a run with a kick clip
    * longer than one second the end check waits: nothing is queued, and the
    * launch stays due.
    */
  lemma EndWaitsForLaunch(s: SceneState, now: int, arc: real -> real)
    requires s.Valid() && s.run.running && s.run.events == Timeline && s.run.startTime == now
    requires !s.run.ballAnimationStarted && !s.ball.animating
    requires |s.cast.pig.clips| > KickClip && s.cast.pig.clips[KickClip].duration > 1.0
    ensures var r := FramedAfterLaunch(s, now, arc);
      && r.run.running && r.run.endTimers == s.run.endTimers
      && !r.run.ballAnimationStarted && r.cast.kickDuration > KickLeadMs
  {
    TimelineFiresBoth(s.cast, 0);
  }

  /** An event is due only if it has not executed. */
  lemma NoneDueWhenAllExecuted(events: seq<TimelineEvent>, elapsed: int)
    requires AllExecuted(events)
    ensures forall i :: 0 <= i < |events| ==> !Due(events[i], elapsed)
  {
  }

  /** The frame half of `EndPendingOnlyWhenDoneKept`. */
  lemma FrameKeepsEndPending(s: SceneState, now: int, arc: real -> real)
    requires s.Valid() && EndPendingOnlyWhenDone(s)
    ensures EndPendingOnlyWhenDone(FramedAfterLaunch(s, now, arc))
  {
    var s1 := s.(ball := Step(s.ball, now, arc));
    if s1.run.running {
      var elapsed := now - s.run.startTime;
      var s2 := LaunchChecked(s1, now);
      assert s2.run.endTimers == s.run.endTimers;
      if s.run.endTimers > 0 {
        assert s1 == s;
        NoneDueWhenAllExecuted(s.run.events, elapsed);
        FireDueIdle(s.cast, s.run.events, elapsed);
        assert s2.cast == s.cast && s2.ball == s.ball;
        assert AllExecuted(s2.run.events);
      }
    }
  }

  /** The key half of `EndPendingOnlyWhenDoneKept`. */
  lemma KeyKeepsEndPending(s: SceneState, now: int, key: string)
    requires s.Valid() && EndPendingOnlyWhenDone(s)
    ensures EndPendingOnlyWhenDone(AfterKeyCancelling(s, key, now))
  {
    if !(KeyCommand(key) == StartKey && !s.run.running) {
      var r := AfterKey(s, key, now);
      assert r.run == s.run && r.ball.animating == s.ball.animating && r.cast.kickDuration == s.cast.kickDuration;
    }
  }

  /**
    * With the intended start and end check, frames, keys and end callbacks
    * keep "an end callback is pending only for a run that is over".
    */
  lemma EndPendingOnlyWhenDoneKept(s: SceneState, now: int, key: string, arc: real -> real)
    requires s.Valid() && EndPendingOnlyWhenDone(s)
    ensures EndPendingOnlyWhenDone(FramedAfterLaunch(s, now, arc))
    ensures EndPendingOnlyWhenDone(AfterKeyCancelling(s, key, now))
    ensures EndPendingOnlyWhenDone(s.(run := EndTimerFired(s.run)))
  {
    FrameKeepsEndPending(s, now, arc);
    KeyKeepsEndPending(s, now, key);
  }

  /**
    * Under the intended start and end check, an end callback that ends a run
    * does so only after every event has executed and the ball has been
    * launched and has landed (or no launch can come).
    */
  lemma IntendedEndOnlyWhenDone(s: SceneState)
    requires EndPendingOnlyWhenDone(s)
    requires s.run.running && !EndTimerFired(s.run).running
    ensures AllExecuted(s.run.events) && !s.ball.animating
    ensures s.run.ballAnimationStarted || s.cast.kickDuration <= 0.0
  {
  }

  /**
    * resetScene puts the pig, the duck (where present) and the ball back at
    * their initial positions with the ball's spin cleared; the pig plays
    * clip 3 (clip 0 when it has no more than three clips), the duck its
    * first stand/idle clip (else clip 0); clips and their settings are kept.
    * It clears the selection but not the modes, and leaves the run, the kick
    * duration and a flight in progress alone.
    */
  lemma ResetRestoresScene(s: SceneState)
    requires s.Valid()
    ensures var r := AfterReset(s);
      && (s.stage.hasPig ==> r.stage.pigPos == InitialPig)
      && (s.stage.hasDuck ==> r.stage.duckPos == InitialDuck)
      && (!s.stage.hasPig ==> r.stage.pigPos == s.stage.pigPos)
      && (!s.stage.hasDuck ==> r.stage.duckPos == s.stage.duckPos)
      && r.stage.hasPig == s.stage.hasPig && r.stage.hasDuck == s.stage.hasDuck
      && r.ball.pos == InitialBall && r.ball.rot == Origin
      && r.ball.animating == s.ball.animating
      && (s.cast.pig.loaded && |s.cast.pig.clips| > 0 ==>
            && r.cast.pig.active == Some(PigResetClipIndex(|s.cast.pig.clips|))
            && r.cast.pig.active.value < |s.cast.pig.clips|)
      && (s.cast.duck.loaded && |s.cast.duck.clips| > 0 ==>
            && r.cast.duck.active == Some(StandClipIndex(Names(s.cast.duck.clips)))
            && r.cast.duck.active.value < |s.cast.duck.clips|)
      && r.cast.pig.clips == s.cast.pig.clips && r.cast.pig.settings == s.cast.pig.settings
      && r.cast.duck.clips == s.cast.duck.clips && r.cast.duck.settings == s.cast.duck.settings
      && r.cast.kickDuration == s.cast.kickDuration
      && r.ui == Selection(None, s.ui.selectionMode, s.ui.movementMode)
      && r.run == s.run
  {
  }

  /**
    * In movement mode a nudge key moves the selected actor by one step along
    * one axis and changes nothing else; with nothing selected, or outside
    * movement mode, it changes nothing at all.
    */
  lemma NudgeMovesOnlySelected(s: SceneState, key: string, now: int)
    requires s.Valid() && MoveDirection(key).Some?
    ensures var r := AfterKey(s, key, now);
      && (s.ui.movementMode && s.ui.selected == Some(BallActor) ==>
            OneStepApart(s.ball.pos, r.ball.pos) && r == s.(ball := s.ball.(pos := r.ball.pos)))
      && (s.ui.movementMode && s.ui.selected == Some(PigActor) ==>
            OneStepApart(s.stage.pigPos, r.stage.pigPos) && r == s.(stage := s.stage.(pigPos := r.stage.pigPos)))
      && (s.ui.movementMode && s.ui.selected == Some(DuckActor) ==>
            OneStepApart(s.stage.duckPos, r.stage.duckPos) && r == s.(stage := s.stage.(duckPos := r.stage.duckPos)))
      && (!s.ui.movementMode || s.ui.selected == None ==> r == s)
  {
    assert KeyCommand(key) == MoveKey(MoveDirection(key).value);
  }

  // ---------------------------------------------------------------------------
  // The scene object
  // ---------------------------------------------------------------------------

  /**
    * The scene's globals, grouped as in `SceneState`: the action sequence,
    * the two mixers with the kick duration, the actors' positions, the ball
    * and its flight, and the selection.
    */
  class Scene {
    var run: Run
    var cast: Cast
    var stage: Stage
    var ball: Ball
    var ui: Selection

    ghost function Snapshot(): SceneState
      reads this
    {
      SceneState(run, cast, stage, ball, ui)
    }

    ghost predicate Valid()
      reads this
    {
      cast.Valid()
    }

    /**
      * The scene once the models have loaded (or been replaced by
      * placeholders): every actor at its initial position, nothing running.
      */
    constructor (pig: Mixer, duck: Mixer, hasPig: bool, hasDuck: bool)
      requires pig.Valid() && duck.Valid()
      ensures Valid()
      ensures Snapshot() == SceneState(
        Run(Timeline, false, 0, false, 0),
        Cast(pig, duck, 0.0),
        Stage(hasPig, hasDuck, InitialPig, InitialDuck),
        Ball(InitialBall, Origin, false, 0, Vec3(-0.8, 0.0, -1.5), Vec3(-0.8, 0.0, 2.6)),
        Selection(None, false, false))
    {
      run := Run(Timeline, false, 0, false, 0);
      cast := Cast(pig, duck, 0.0);
      stage := Stage(hasPig, hasDuck, InitialPig, InitialDuck);
      ball := Ball(InitialBall, Origin, false, 0, Vec3(-0.8, 0.0, -1.5), Vec3(-0.8, 0.0, 2.6));
      ui := Selection(None, false, false);
    }

    /** startActionSequence. */
    method StartActionSequence(now: int)
      modifies this`run, this`stage, this`ball
      ensures Snapshot() == Started(old(Snapshot()), now)
    {
      for i := 0 to |run.events|
        modifies this`run
        invariant run == old(run).(events := run.events)
        invariant |run.events| == |old(run.events)|
        invariant forall j :: 0 <= j < i ==> run.events[j] == old(run.events[j]).(executed := false)
        invariant forall j :: i <= j < |run.events| ==> run.events[j] == old(run.events[j])
      {
        run := run.(events := run.events[i := run.events[i].(executed := false)]);
      }
      assert run.events == Cleared(old(run.events));
      run := run.(ballAnimationStarted := false);
      run := run.(running := true, startTime := now);
      if stage.hasPig {
        stage := stage.(pigPos := InitialPig);
      }
      if stage.hasDuck {
        stage := stage.(duckPos := InitialDuck);
      }
      ball := ball.(pos := InitialBall);
    }

    /** The `switch` on an event's action in updateActionSequence. */
    method PerformEvent(action: EventAction)
      requires Valid()
      modifies this`cast
      ensures Valid()
      ensures cast == Perform(old(cast), action)
    {
      match action
      case PigKick =>
        if |cast.pig.clips| > KickClip {
          cast := cast.(kickDuration := cast.pig.clips[KickClip].duration * 1000.0);
          cast := cast.(pig := PlayOnce(cast.pig, KickClip));
        }
      case DuckSave =>
        if |cast.duck.clips| > 0 {
          var saveIndex := OldSaveClipIndex(Names(cast.duck.clips));
          cast := cast.(duck := PlayOnceAtSpeed(cast.duck, saveIndex, SaveSpeed));
        }
    }

    /** The timeline loop of updateActionSequence. */
    method FireDueEvents(elapsed: int)
      requires Valid()
      modifies this`run, this`cast
      ensures Valid()
      ensures Snapshot() == EventsFired(old(Snapshot()), elapsed)
    {
      ghost var events := run.events;
      ghost var c0 := cast;
      var marked := run.events;
      for i := 0 to |marked|
        modifies this`cast
        invariant Valid()
        invariant |marked| == |events|
        invariant forall j :: 0 <= j < i ==> marked[j] == MarkOne(events[j], elapsed)
        invariant forall j :: i <= j < |events| ==> marked[j] == events[j]
        invariant cast == FireDue(c0, events[..i], elapsed)
      {
        var e := marked[i];
        FireDuePrefix(c0, events, i, elapsed);
        if elapsed >= e.time && !e.executed {
          marked := marked[i := e.(executed := true)];
          PerformEvent(e.action);
        }
        assert marked[i] == MarkOne(events[i], elapsed);
      }
      assert events[..|events|] == events;
      assert marked == Mark(events, elapsed);
      run := run.(events := marked);
    }

    /** The loop of updateActionSequence that checks every event has executed. */
    method AllEventsExecuted() returns (all: bool)
      ensures all <==> AllExecuted(run.events)
    {
      all := true;
      var i := 0;
      while i < |run.events|
        invariant 0 <= i <= |run.events|
        invariant forall j :: 0 <= j < i ==> run.events[j].executed
      {
        if !run.events[i].executed {
          all := false;
          break;
        }
        i := i + 1;
      }
    }

    /** startBallAnimation. */
    method StartBallAnimation(now: int)
      modifies this`ball
      ensures ball == Launch(old(ball), now)
    {
      ball := ball.(animating := true, startTime := now);
      ball := ball.(from := ball.pos);
      ball := ball.(to := Vec3(ball.from.x, ball.from.y, BallEndZ));
    }

    /** updateBallAnimation; `arc` gives the arc height for the eased progress. */
    method UpdateBallAnimation(now: int, arc: real -> real)
      modifies this`ball
      ensures ball == Fly(old(ball), now, arc)
    {
      var elapsed := now - ball.startTime;
      if elapsed < FlightMs {
        var progress := elapsed as real / FlightMs as real;
        var eased := EaseInOutQuad(progress);
        var x := Lerp(ball.from.x, ball.to.x, eased);
        var z := Lerp(ball.from.z, ball.to.z, eased);
        var y := ball.from.y + arc(eased);
        ball := ball.(pos := Vec3(x, y, z));
        ball := ball.(rot := Vec3(ball.rot.x + SpinX, ball.rot.y, ball.rot.z + SpinZ));
      } else {
        ball := ball.(pos := ball.to, animating := false);
      }
    }

    /** updateActionSequence at time `now`. */
    method UpdateActionSequence(now: int, arc: real -> real)
      requires Valid()
      modifies this`run, this`cast, this`ball
      ensures Valid()
      ensures Snapshot() == Updated(old(Snapshot()), now, arc)
    {
      var elapsed := now - run.startTime;
      FireDueEvents(elapsed);
      if !run.ballAnimationStarted && cast.kickDuration > 0.0 && elapsed as real >= cast.kickDuration - KickLeadMs {
        StartBallAnimation(now);
        run := run.(ballAnimationStarted := true);
      }
      assert Snapshot() == LaunchChecked(old(Snapshot()), now);
      if ball.animating {
        UpdateBallAnimation(now, arc);
      }
      var allExecuted := AllEventsExecuted();
      if allExecuted && !ball.animating && run.running {
        run := run.(endTimers := run.endTimers + 1);
      }
    }

    /** One frame of the render loop (update): the ball, then the sequence if it runs. */
    method Update(now: int, arc: real -> real)
      requires Valid()
      modifies this`run, this`cast, this`ball
      ensures Valid()
      ensures Snapshot() == Framed(old(Snapshot()), now, arc)
    {
      if ball.animating {
        UpdateBallAnimation(now, arc);
      }
      if run.running {
        UpdateActionSequence(now, arc);
      }
    }

    /** One of the deferred callbacks that end the run. */
    method FireEndTimer()
      modifies this`run
      ensures run == EndTimerFired(old(run))
    {
      if run.endTimers > 0 {
        run := run.(endTimers := run.endTimers - 1);
        run := run.(running := false);
      }
    }

    /** resetScene. */
    method ResetScene()
      requires Valid()
      modifies this`stage, this`ball, this`cast, this`ui
      ensures Valid()
      ensures Snapshot() == AfterReset(old(Snapshot()))
    {
      if stage.hasPig {
        stage := stage.(pigPos := InitialPig);
      }
      ball := ball.(pos := InitialBall, rot := Origin);
      if stage.hasDuck {
        stage := stage.(duckPos := InitialDuck);
      }
      var pig := cast.pig;
      if pig.loaded && |pig.clips| > 0 {
        var defaultIndex := 3;
        if defaultIndex >= |pig.clips| {
          defaultIndex := 0;
        }
        cast := cast.(pig := pig.(active := Some(defaultIndex)));
      }
      var duck := cast.duck;
      if duck.loaded && |duck.clips| > 0 {
        var standIndex := FindStandClip(Names(duck.clips));
        cast := cast.(duck := duck.(active := Some(standIndex)));
      }
      ui := ui.(selected := None);
    }

    /** moveSelectedObject. */
    method MoveSelectedObject(d: Direction)
      modifies this`stage, this`ball
      ensures Snapshot() == Moved(old(Snapshot()), d)
    {
      match ui.selected
      case None =>
      case Some(PigActor) => stage := stage.(pigPos := Nudge(stage.pigPos, d));
      case Some(DuckActor) => stage := stage.(duckPos := Nudge(stage.duckPos, d));
      case Some(BallActor) => ball := ball.(pos := Nudge(ball.pos, d));
    }

    /** onKeyDown. */
    method OnKeyDown(key: string, now: int)
      requires Valid()
      modifies this
      ensures Valid()
      ensures Snapshot() == AfterKey(old(Snapshot()), key, now)
    {
      match KeyCommand(key)
      case PigClipKey(i) =>
        if i < |cast.pig.clips| {
          cast := cast.(pig := PlayLooping(cast.pig, i));
        }
      case DuckClipKey(i) =>
        if i < |cast.duck.clips| {
          cast := cast.(duck := PlayAtNormalSpeed(cast.duck, i));
        }
      case SelectDuckKey =>
        if stage.hasDuck {
          ui := ui.(selected := Some(DuckActor), movementMode := true);
        }
      case SelectPigKey =>
        if stage.hasPig {
          ui := ui.(selected := Some(PigActor), movementMode := true);
        }
      case ResetKey =>
        ResetScene();
      case StartKey =>
        if !run.running {
          StartActionSequence(now);
        }
      case SelectionModeKey =>
        ui := ui.(selectionMode := !ui.selectionMode);
        if !ui.selectionMode && ui.selected.Some? {
          ui := ui.(selected := None, movementMode := false);
        }
      case SelectBallKey =>
        ui := ui.(selected := Some(BallActor), movementMode := true);
      case MoveKey(d) =>
        if ui.selected.Some? && ui.movementMode {
          MoveSelectedObject(d);
        }
      case OtherKey =>
    }
  }
}

=== FILE: text.dfy ===
/**
  * The two string operations the clip-name searches use: lower-casing
  * (`String.prototype.toLowerCase`) and substring search
  * (`String.prototype.includes`).
  */
module Text {

  /** ASCII lower-casing of one character; every other character is kept. */
  function LowerChar(c: char): char
  {
    if 'A' <= c <= 'Z' then (c as int + 32) as char else c
  }

  /** `toLowerCase`, character by character. */
  function Lower(s: string): (r: string)
    ensures |r| == |s|
    ensures forall i :: 0 <= i < |s| ==> r[i] == LowerChar(s[i])
    ensures forall i :: 0 <= i < |r| ==> !('A' <= r[i] <= 'Z')
    ensures (forall i :: 0 <= i < |s| ==> !('A' <= s[i] <= 'Z')) ==> r == s
  {
    seq(|s|, i requires 0 <= i < |s| => LowerChar(s[i]))
  }

  /** `sub` occurs in `s` starting at index `i`. */
  predicate OccursAt(s: string, sub: string, i: int)
  {
    0 <= i && i + |sub| <= |s| && s[i..i + |sub|] == sub
  }

  /** `s.includes(sub)`. */
  predicate Contains(s: string, sub: string)
  {
    exists i | 0 <= i <= |s| :: OccursAt(s, sub, i)
  }

  /** Every string contains itself. */
  lemma ContainsSelf(s: string)
    ensures Contains(s, s)
  {
    assert OccursAt(s, s, 0);
  }

  /** Containment is transitive: an occurrence inside an occurrence is an occurrence. */
  lemma ContainsTransitive(s: string, mid: string, sub: string)
    requires Contains(s, mid) && Contains(mid, sub)
    ensures Contains(s, sub)
  {
    var i :| 0 <= i <= |s| && OccursAt(s, mid, i);
    var j :| 0 <= j <= |mid| && OccursAt(mid, sub, j);
    forall k | 0 <= k < |sub|
      ensures s[i + j + k] == sub[k]
    {
      assert mid[j + k] == mid[j..j + |sub|][k];
      assert s[i + j + k] == s[i..i + |mid|][j + k];
    }
    assert s[i + j..i + j + |sub|] == sub;
    assert OccursAt(s, sub, i + j);
  }

  /** A name that contains "goal_save" contains "save". */
  lemma GoalSaveContainsSave(s: string)
    requires Contains(s, "goal_save")
    ensures Contains(s, "save")
  {
    var i :| 0 <= i <= |s| && OccursAt(s, "goal_save", i);
    assert s[i..i + 9] == "goal_save";
    assert s[i + 5..i + 9] == "goal_save"[5..9];
    assert OccursAt(s, "save", i + 5);
  }

  /** `s.indexOf(c)` for a one-character key: the first index of `c`, or -1. */
  function IndexOf(s: string, c: char): (r: int)
    ensures -1 <= r < |s|
    ensures r == -1 <==> c !in s
    ensures r != -1 ==> s[r] == c && forall j :: 0 <= j < r ==> s[j] != c
    decreases |s|
  {
    if s == [] then -1
    else if s[0] == c then 0
    else
      var k := IndexOf(s[1..], c);
      if k == -1 then -1
      else
        assert forall j :: 1 <= j <= k ==> s[j] == s[1..][j - 1];
        k + 1
  }

  /** In a string of distinct characters, indexOf finds each character at its own position. */
  lemma IndexOfDistinct(s: string, i: int)
    requires forall j, k :: 0 <= j < k < |s| ==> s[j] != s[k]
    requires 0 <= i < |s|
    ensures IndexOf(s, s[i]) == i
  {
  }
}
